=== FILE: README.md ===
# Pretty breakpoints, modelled in Dafny

Two Python functions choose "pretty" axis breakpoints: round numbers, evenly spaced, that cover a data range.

- `pretty(x, n=5, p=[1, 2, 5], base=10.0, tol=1e-9)` in `pretty.py` is the general engine. It follows Dixon and Kronmal (1965, Journal of the ACM 12(2)).
  - It checks its inputs and keeps the rounding coefficients `p` that lie in `[1, base)`, sorted.
  - It picks a starting exponent `k` and coefficient index `i`.
  - It widens the step `s = p[i-1] * base^k`, in the order (k, then i), until the window `[a, a + s*n]` reaches `max(x)`. The origin `a` is a multiple of `s` placed about the data midpoint.
  - It emits the grid `np.arange(a, b + 1, s)` clipped to `[min(x) - s, max(x) + s]`. Values of magnitude below `tol` become 0.
- `pretty(lo, up, n=5)` in `pretty_simple.py` is a one-shot radix-10 simplification of R's `pretty()`.
  - It rounds the cell `(up - lo) / n` to a nearby unit `k * 10^t` with `k` in {1, 2, 5, 10}, so that `cell/1.4 <= unit < cell/0.56` (`PrettySimple.UnitBounds`). The unit can fall below the cell: a cell of 1.3 gets unit 1 (`PrettySimple.UnitBelowCell`).
  - It returns the multiples of the unit from just below `lo` to just above `up`.

The model works over exact `real`s. Logarithms are never computed: `floor(log_b(x))` is the unique integer `t` with `b^t <= x < b^(t+1)`, found by a terminating search (`RealMath.FloorLog`). `b ** k` is `RealMath.Pow`, for every integer `k`. numpy arrays are `seq<real>`; the few numpy operations used are in `ArrayOps`.

Modules:
- `Results`: the `Result` datatype, used where the Python code raises.
- `RealMath`: powers, floor-log, ceiling, "is a multiple of", and small real-arithmetic facts.
- `ArrayOps`: `np.sort`, mask selection, `np.where(...)[0][0]`, `min`/`max`, `np.arange`, and zero-snapping.
- `Pretty`: the general engine.
  - `Pretty.Pretty` is the whole call.
  - `Pretty.Search` is the widening loop as a recursive search.
  - `Pretty.Widen` is the same loop as a `while` method, proved to stop on the same window.
- `PrettySimple`: the radix-10 variant.
- `PrettyExamples`: the docstring examples of `pretty.py`, each evaluated to its exact output.

Behaviour of the code that the model keeps as it is:
- **Default interval count.** `n` defaults to 5 (`pretty.py:4`, `Pretty.DefaultN`), whatever the sample size.
- **Termination.** Over exact reals the loop at `pretty.py:59-68` never ends when `n == 2` and `min(x) + max(x) < 0 < max(x)`: every window then ends at or below 0. The model returns `Failure(NeverCovers)` for exactly those inputs (`Pretty.Terminates`). With floating point the loop stops only once rounding absorbs the midpoint.
- **Simple variant inputs.** The simple variant accepts any `n != 0` with a positive cell (`pretty_simple.py:33-34`), so `lo > up` with `n < 0` is accepted. The grid still runs from `floor(lo/unit + 1e-10)` to `ceil(up/unit - 1e-10)`. It holds at most two points, at most one for `n <= -2`, and none for `n <= -4` (`PrettySimple.ReversedBreaks`). For example `pretty(10.3, 10.1, -1) == [10.2]` (`PrettySimple.ReversedExample`).
- **Simple variant coverage.** The simple variant's output covers `[lo, up]` up to a slack of `1e-10 * unit` at each end, from its `floor`/`ceil` (`PrettySimple.BreaksCover`).
- **Number of intervals.** `n` is an approximate interval count (`pretty.py:9`, `pretty_simple.py:7`, `pretty_simple.py:25`). The general engine returns at most `n + 3` breakpoints (`Pretty.BreaksCount`). The simple variant returns fewer than `1.4 n + 3` (`PrettySimple.BreaksCount`).

## Model

| member | source | states |
|---|---|---|
| Pretty.Pretty | pretty.py:33-68 | Each rejection happens exactly when the Python assertion fails, in the same order: fewer than 2 samples, base < 2, n < 2, R <= 0, no coefficient left in [1, base). The call reports NeverCovers exactly when the inputs pass those checks but the widening loop never reaches B. It succeeds exactly when the inputs pass and the loop ends. |
| Pretty.PrettyOutput | pretty.py:71-73 | A successful call returns as many values as the clipped grid, between two and n + 3, ascending. It replaces by 0 exactly the nonzero grid values of magnitude below tol, and leaves every other value unchanged. |
| Pretty.BreaksCount | pretty.py:59-72 | n is an approximate interval count (line 9). When the loop ends, the clipped grid has at most n + 3 breakpoints: they are s apart inside [A - s, B + s], and the final window's n steps span R. |
| Pretty.Coefficients | pretty.py:44-46 | The coefficients kept are ascending and all in [1, base). Lines 51-68 rely on both: p.max() is the last coefficient, the np.where search finds the first coefficient reaching a bound, and the loop visits steps in increasing order. |
| Pretty.CoefficientsKept | pretty.py:44-45 | Each value of p in [1, base) is kept with its multiplicity in p; every other value is dropped. |
| Pretty.StartExponent | pretty.py:49-54 | The starting exponent is floor(log_base(R/n)) or one more. |
| Pretty.StartExponentBrackets | pretty.py:49-54 | At the starting exponent k, max(p)*base^k reaches R/n, and at k - 1 it falls short. |
| Pretty.BelowStartExponent | pretty.py:49-54 | At every exponent below the starting one, even max(p)*base^j falls short of R/n. |
| Pretty.StartIndexReaches | pretty.py:56 | `StartIndex(c)` is np.where(...)[0][0] + 1. At an exponent where max(p)*base^k reaches R/n, the np.where search finds a real 1-based index, and that coefficient's step reaches R/n. |
| Pretty.BeforeStartIndex | pretty.py:56 | Every coefficient before the found index falls short of R/n at that exponent. |
| Pretty.StartReaches | pretty.py:49-56 | The first candidate (i, k) is a valid index, and its step is at least R/n. |
| Pretty.StartSpansRange | pretty.py:56-63 | The first candidate's n steps already span R: s*n >= R. |
| Pretty.BeforeStartTooSmall | pretty.py:49-56 | Every candidate that precedes the start in visiting order has a step below R/n, so its window cannot span the range. |
| Pretty.Step | pretty.py:61 | The step p[i-1]*base^k is at least base^k and positive. |
| Pretty.Next | pretty.py:64-68 | The next candidate is valid and comes directly after the current one in visiting order: no valid candidate lies strictly between them. |
| Pretty.NextStepGrows | pretty.py:61-68 | The step never shrinks from one pass to the next. Wrapping from max(p)*base^k to p[0]*base^(k+1) strictly increases it. |
| Pretty.StepGrowsWithin | pretty.py:64-65 | Moving to the next sorted coefficient at the same exponent does not shrink the step. |
| Pretty.StepGrowsOnWrap | pretty.py:66-68 | Wrapping to p[0] at the next exponent strictly increases the step, because max(p) < base. |
| Pretty.AlignedOrigin | pretty.py:62 | s*floor(y/s) is a multiple of s in (y - s, y]. |
| Pretty.WindowFor | pretty.py:62-63 | The window's origin is a multiple of s at or below the centring point (A+B)/2 - s*n/2, and less than one step below it. Its end is the origin plus s*n. |
| Pretty.LoopWindow | pretty.py:61-63 | The literal Python expressions for s, a and b give the window of the current candidate. |
| Pretty.LoopStep | pretty.py:61-63 | One pass's s, a, b are the window of candidate (i, k). |
| Pretty.Widen | pretty.py:59-68 | The while loop ends on the window the search picks. On exit s > 0, a is a multiple of s, b - a == s*n >= R, a <= A and b >= B. The loop invariants keep these facts after every pass. |
| Pretty.Search | pretty.py:59-68 | The search returns a valid candidate whose window covers B, at or after the one it starts from. Its step is no smaller than the start's, and no candidate in between covers. |
| Pretty.FinalCandidateIsFirst | pretty.py:59-68 | The loop stops at the first candidate, in visiting order, whose window reaches B. No earlier candidate covers. |
| Pretty.FinalWindowFrames | pretty.py:59-63 | The final window is aligned to its step and n steps wide. It starts at or below A, ends at or beyond B, and spans at least R. |
| Pretty.NarrowStepMisses | pretty.py:60-63 | A window whose n steps are narrower than R ends below B, so the loop goes on. |
| Pretty.LargeStepCovers | pretty.py:59-68 | When the search terminates, every step at or above a fixed threshold gives a window that reaches B. |
| Pretty.CoversAtExponentBound | pretty.py:59-68 | Every candidate at or past a bound on the exponent covers B. This bounds the search and gives its termination. |
| Pretty.BelowExponentBound | pretty.py:59-68 | A candidate that does not cover lies below the exponent bound. |
| Pretty.TwoIntervalsNeverCover | pretty.py:59-68 | With n == 2 and A + B < 0, every window ends at or below 0, whatever its step, so it never reaches B > 0. |
| Pretty.NoCandidateCovers | pretty.py:59-68 | When the termination condition fails, no candidate at all covers B, so the loop runs forever over exact reals. |
| Pretty.TwoIntervalOrigin | pretty.py:62 | With two intervals the origin is s*floor((M - s)/s) for the midpoint M. It is -s when 0 <= M < s, -2s when -s <= M < 0, and at most -2s whenever M < 0. |
| Pretty.TickInBand | pretty.py:71-72 | `Ticks(c, w)` is np.arange(a, b + 1, s) clipped to [A - s, B + s]. Every emitted tick lies in [A - s, B + s] and is a multiple of s. |
| Pretty.TicksProgression | pretty.py:71-72 | The clipped grid is still a progression with gap s: the clip removes only points at its ends. |
| Pretty.GridPointIsTick | pretty.py:71-72 | Every grid point a + j*s below b + 1 that lies in the band is emitted. |
| Pretty.TickAtOrBelow | pretty.py:71-72 | Every point x of [A, B] has a tick in (x - s, x]; in particular A does. |
| Pretty.TickAtOrAbove | pretty.py:71-72 | Every point x of [A, B] has a tick in [x, x + s); in particular B does. |
| Pretty.TicksBracket | pretty.py:71-72 | A window that frames [A, B] yields at least two ticks. The first is in [A - s, A] and the last in [B, B + s]. |
| Pretty.TicksFacts | pretty.py:71-72 | A framing window's ticks are at least two. They form a progression with gap s of multiples of s inside [A - s, B + s], and bracket [A, B]. |
| Pretty.BreaksFacts | pretty.py:59-72 | `Breaks(c)` is the ticks of the window the loop stops at. Before zero-snapping, the output is at least two values, strictly ascending with gap exactly s. Every value is a multiple of s in [A - s, B + s], min(out) <= A and max(out) >= B. |
| ArrayOps.Sort | pretty.py:44 | np.sort returns an ascending permutation of its input. |
| ArrayOps.SortSorted | pretty.py:44 | Sorting an ascending array leaves it as it is. |
| ArrayOps.Select | pretty.py:45 | A boolean mask keeps exactly the values it accepts, and keeps an ascending array ascending. |
| ArrayOps.SelectCount | pretty.py:45 | Each accepted value is kept as often as it occurs; every other value occurs zero times. |
| ArrayOps.SelectIntervalProgression | pretty.py:72 | Masking a progression to an interval leaves a progression with the same gap. |
| ArrayOps.FirstAtLeast | pretty.py:56 | np.where(xs >= t)[0][0] is the first position holding a value >= t: all earlier values are below t. |
| ArrayOps.Min | pretty.py:37 | x.min() is an element of x and no element is smaller. |
| ArrayOps.Max | pretty.py:38 | x.max() is an element of x and no element is larger. |
| ArrayOps.ARange | pretty.py:71 | np.arange(a, stop, s) starts at a, has gap s, stays below stop, and stops at the first point that would reach stop. |
| ArrayOps.ARangeContains | pretty.py:71 | Every point a + j*s, for j >= 0, below stop is emitted. |
| ArrayOps.ARangeMultiples | pretty.py:71 | From an origin that is a multiple of s, np.arange emits only multiples of s. |
| ArrayOps.ProgressionAscending | pretty.py:71 | A progression with positive gap is strictly ascending. |
| ArrayOps.SnapZeros | pretty.py:73 | Zero-snapping changes exactly the nonzero elements of magnitude below tol, and sets them to 0. The length is kept, and afterwards every element is 0 or of magnitude at least tol. |
| ArrayOps.SnapZerosIdempotent | pretty.py:73 | Snapping twice is the same as snapping once. |
| ArrayOps.SnapZerosKeepsOrder | pretty.py:73 | Snapping keeps an ascending array ascending. |
| RealMath.FloorLog | pretty.py:49 | The computed exponent t satisfies base^t <= x < base^(t+1). |
| RealMath.FloorLogUnique | pretty.py:49 | Only one exponent brackets x, so it is the one the search finds. |
| RealMath.FloorLogMonotone | pretty.py:49 | floor(log_b(x)) does not decrease as x grows. |
| RealMath.Ceil | pretty_simple.py:45 | math.ceil(x) is the integer in [x, x + 1). |
| RealMath.PowStrictlyIncreasing | pretty.py:51 | `Pow(base, k)`, the exact `base**k` for every integer k, is strictly increasing in k: base^j < base^k for j < k when base > 1. |
| RealMath.PowReciprocal | pretty.py:51 | base^-k times base^k is 1, so negative powers are reciprocals. |
| PrettySimple.Pretty | pretty_simple.py:33-47 | The call fails with division by zero exactly when n == 0. It fails with a math domain error exactly when the cell (up - lo)/n is not positive. Otherwise it returns the grid of lines 43-47. |
| PrettySimple.DecadeBrackets | pretty_simple.py:34 | `Decade(cell)`, the base = 10^floor(log10(cell)) of line 34, satisfies base <= cell < 10*base, so 1 <= cell/base < 10. |
| PrettySimple.Multiplier | pretty_simple.py:35-42 | The multiplier is 1, 2, 5 or 10. |
| PrettySimple.MultiplierIsLeast | pretty_simple.py:35-42 | Each threshold is 1.4 times its multiplier. The chosen k is the least of 1, 2, 5 with cell <= 1.4*k*base, and 10 when there is none. |
| PrettySimple.UnitBounds | pretty_simple.py:35-43 | `Unit(cell)`, the k * base of line 43, satisfies cell/1.4 <= unit < cell/0.56. |
| PrettySimple.UnitBelowCell | pretty_simple.py:35-43 | The unit can be smaller than the cell: a cell of 1.3 keeps k = 1 and gets unit 1. |
| PrettySimple.LowIndexBound | pretty_simple.py:44 | unit*floor(lo/unit + 1e-10) is at most lo + 1e-10*unit. |
| PrettySimple.HighIndexBound | pretty_simple.py:45 | unit*ceil(up/unit - 1e-10) is at least up - 1e-10*unit. |
| PrettySimple.GridMembers | pretty_simple.py:47 | `Grid(unit, ns, nu)` is [unit * i for i in range(ns, nu + 1)]. A value is in unit*range(ns, nu + 1) exactly when it is a multiple of unit between unit*ns and unit*nu. |
| PrettySimple.GridMemberIsMultiple | pretty_simple.py:47 | Every output value is a multiple of unit between unit*ns and unit*nu. |
| PrettySimple.MultipleIsGridMember | pretty_simple.py:47 | Every multiple of unit between unit*ns and unit*nu is in the output. |
| PrettySimple.GridShape | pretty_simple.py:47 | The output runs from unit*ns to unit*nu in steps of unit, and every element is an integer multiple of unit. |
| PrettySimple.IndicesApart | pretty_simple.py:44-45 | For lo < up and n > 0, ns < nu: (up - lo)/unit > 0.56 exceeds the 2e-10 the slack removes. |
| PrettySimple.BreaksCover | pretty_simple.py:44-47 | `Breaks(lo, up, cell)` is the grid from ns = floor(lo/unit + 1e-10) to nu = ceil(up/unit - 1e-10). For lo < up and n > 0 the output has at least two elements, ascends in steps of unit, and holds only multiples of unit. Its first element is at most lo + 1e-10*unit and its last at least up - 1e-10*unit. |
| PrettySimple.BreaksCount | pretty_simple.py:33-47 | The docstring promises about n breaks (lines 7 and 25). For lo < up and n > 0 there are fewer than 1.4n + 3 breaks, since the unit is at least cell/1.4. |
| PrettySimple.ReversedBreaks | pretty_simple.py:33-47 | A reversed range, up < lo with n < 0, passes the checks. Since unit < cell/0.56, the span lo - up exceeds 0.56*unit*(-n), so there are at most two breaks, at most one for n <= -2, and none for n <= -4. |
| PrettySimple.ReversedExample | pretty_simple.py:33-47 | pretty(10.3, 10.1, n=-1) == [10.2]: cell 0.2, unit 0.2, ns == nu == 51. |
| PrettySimple.DocumentedExample | pretty_simple.py:29-30 | pretty(-1, 101, n=5) == [-20, 0, 20, 40, 60, 80, 100, 120]. |
| PrettyExamples.DefaultExample | pretty.py:20-22 | pretty(np.arange(1, 101)) == [0, 20, 40, 60, 80, 100]. |
| PrettyExamples.FourIntervalsExample | pretty.py:23 | pretty(x, n=4) == [0, 50, 100, 150]. |
| PrettyExamples.FourIntervalsRerun | pretty.py:59-73 | pretty([0, 50, 100, 150], n=4) == [-50, 0, 50, 100, 150], so pretty is not idempotent: -50 == A - s survives the clip. |
| PrettyExamples.BaseFiveExample | pretty.py:24 | pretty(x, base=5) == [0, 25, 50, 75, 100]. |
| PrettyExamples.SeventhsExample | pretty.py:25 | pretty(x, p=[10/7, 20/7, 50/7]) == [0, 200/7, 400/7, 600/7, 800/7], exactly (28.57..., 57.14..., ...). |
| PrettyExamples.BaseFiveCoefficients | pretty.py:44-45 | With base 5 the coefficient 5 is filtered out, leaving [1, 2]. |
| PrettyExamples.CoefficientsOfPrepared | pretty.py:44-45 | Coefficients already ascending and inside [1, base) pass the sort and the filter unchanged. |
| PrettyExamples.ARangeOf | pretty.py:71 | np.arange(a, stop, s) has exactly m points, a + j*s, when stop lies in (a + (m-1)*s, a + m*s]. |
| PrettyExamples.TicksAfterFirst | pretty.py:71-72 | When only the first grid point falls outside the band, the clip drops exactly that point. |

## Left out

- Floating point: all arithmetic is exact over `real`. The model leaves out rounding in `math.log`, `math.log10` and `**`, and accumulated drift in `np.arange`. The constants `1e-10` and `tol` are kept as exact literals. So the off-by-one-exponent shifts that floating-point logarithms cause near powers of the base are not modelled.
- Pretty.Pretty: the float-only termination of the `n == 2`, `min(x) + max(x) < 0 < max(x)` case. Over exact reals that loop never ends (`Pretty.NoCandidateCovers`), so the model reports `NeverCovers` where Python eventually returns.
- Pretty.Pretty: `n = int(n)` (`pretty.py:42`) is not modelled; `n` is an `int` from the start, so a non-integer `n` is not represented.
- Pretty.Pretty: `x` is a sequence of reals. Integer and float element types, and numpy's result dtype, are not distinguished.
- ArrayOps.FirstAtLeast: it returns `|xs|` where `np.where(...)[0][0]` would raise `IndexError`. The index search at `pretty.py:56` never reaches that case (`Pretty.StartIndexReaches`).
- PrettySimple.Pretty: Python's `10 ** k` is an `int` for `k >= 0` and a `float` otherwise. The model has one real-valued `Pow`.
- Idempotence: `pretty` is not idempotent, so the model claims no such property. On the output `[0, 50, 100, 150]` of the `n=4` docstring example it returns `[-50, 0, 50, 100, 150]`, because `-50` equals `A - s` and survives the clip at `pretty.py:72` (`PrettyExamples.FourIntervalsRerun`).

=== FILE: array_ops.dfy ===
/** The numpy array operations the general engine relies on, over `seq<real>`:
    `np.sort`, boolean-mask selection `a[mask]`, `np.where(...)[0][0]`,
    `min`/`max`, `np.arange`, and masked assignment `a[abs(a) < tol] = 0`. */
module ArrayOps {
  import opened RealMath

  predicate Sorted(xs: seq<real>) {
    forall j, k :: 0 <= j < k < |xs| ==> xs[j] <= xs[k]
  }

  /** Consecutive elements differ by exactly s: xs is xs[0], xs[0]+s, xs[0]+2s, ... */
  predicate IsProgression(xs: seq<real>, s: real) {
    forall j :: 0 <= j < |xs| ==> xs[j] == xs[0] + j as real * s
  }

  function Insert(x: real, xs: seq<real>): (r: seq<real>)
    requires Sorted(xs)
    ensures Sorted(r)
    ensures multiset(r) == multiset(xs) + multiset{x}
  {
    if |xs| == 0 || x <= xs[0] then
      ConsSorted(x, xs);
      [x] + xs
    else
      var rest := Insert(x, xs[1..]);
      InsertBehindHead(x, xs, rest);
      [xs[0]] + rest
  }

  /** When x goes behind the head of xs, the head stays in front. */
  lemma InsertBehindHead(x: real, xs: seq<real>, rest: seq<real>)
    requires Sorted(xs) && |xs| > 0 && xs[0] < x
    requires Sorted(rest) && multiset(rest) == multiset(xs[1..]) + multiset{x}
    ensures Sorted([xs[0]] + rest)
    ensures multiset([xs[0]] + rest) == multiset(xs) + multiset{x}
  {
    assert xs == [xs[0]] + xs[1..];
    forall e | e in rest
      ensures xs[0] <= e
    {
      assert e in multiset(rest);
    }
    ConsSorted(xs[0], rest);
  }

  lemma ConsSorted(h: real, t: seq<real>)
    requires Sorted(t)
    requires forall e :: e in t ==> h <= e
    ensures Sorted([h] + t)
  {
    var r := [h] + t;
    forall j, k | 0 <= j < k < |r|
      ensures r[j] <= r[k]
    {
      assert r[k] == t[k - 1] && t[k - 1] in t;
      if j > 0 {
        assert r[j] == t[j - 1];
      }
    }
  }

  /** np.sort: an ascending permutation of xs. */
  function Sort(xs: seq<real>): (r: seq<real>)
    ensures Sorted(r)
    ensures multiset(r) == multiset(xs)
  {
    if |xs| == 0 then []
    else
      assert xs == [xs[0]] + xs[1..];
      Insert(xs[0], Sort(xs[1..]))
  }

  /** An already ascending array is left as it is. */
  lemma {:induction false} SortSorted(xs: seq<real>)
    requires Sorted(xs)
    ensures Sort(xs) == xs
  {
    if |xs| > 0 {
      SortSorted(xs[1..]);
      assert xs == [xs[0]] + xs[1..];
    }
  }

  /** `xs[mask]` with mask = keep(xs): the elements kept, in their order. */
  function Select(xs: seq<real>, keep: real -> bool): (r: seq<real>)
    ensures forall e :: e in r <==> e in xs && keep(e)
    ensures Sorted(xs) ==> Sorted(r)
  {
    if |xs| == 0 then []
    else
      var rest := Select(xs[1..], keep);
      assert xs == [xs[0]] + xs[1..];
      if keep(xs[0]) then
        SelectKeepsOrder(xs, rest);
        [xs[0]] + rest
      else
        SortedTail(xs);
        rest
  }

  /** The mask keeps every accepted value as often as it occurs in xs and
      drops every other value. */
  lemma {:induction false} SelectCount(xs: seq<real>, keep: real -> bool)
    ensures forall e :: multiset(Select(xs, keep))[e] == if keep(e) then multiset(xs)[e] else 0
  {
    if |xs| > 0 {
      SelectCount(xs[1..], keep);
      assert xs == [xs[0]] + xs[1..];
    }
  }

  lemma SortedTail(xs: seq<real>)
    requires |xs| > 0
    ensures Sorted(xs) ==> Sorted(xs[1..])
  {
  }

  /** Putting the head of a sorted xs in front of elements taken from its
      tail keeps them sorted. */
  lemma SelectKeepsOrder(xs: seq<real>, rest: seq<real>)
    requires |xs| > 0
    requires forall e :: e in rest ==> e in xs[1..]
    requires Sorted(xs[1..]) ==> Sorted(rest)
    ensures Sorted(xs) ==> Sorted([xs[0]] + rest)
  {
    if Sorted(xs) {
      SortedTail(xs);
      forall e | e in rest
        ensures xs[0] <= e
      {
        var m :| 0 <= m < |xs[1..]| && xs[1..][m] == e;
        assert xs[m + 1] == e;
      }
      ConsSorted(xs[0], rest);
    }
  }

  /** An element the mask keeps survives the selection. */
  lemma SelectKeeps(xs: seq<real>, keep: real -> bool, e: real)
    requires e in xs && keep(e)
    ensures e in Select(xs, keep)
  {
  }

  lemma ProgressionAt(xs: seq<real>, s: real, j: int)
    requires IsProgression(xs, s) && 0 <= j < |xs|
    ensures xs[j] == xs[0] + j as real * s
  {
  }

  lemma TailProgression(xs: seq<real>, s: real)
    requires |xs| > 0 && IsProgression(xs, s)
    ensures IsProgression(xs[1..], s)
  {
    var tail := xs[1..];
    forall j | 0 <= j < |tail|
      ensures tail[j] == tail[0] + j as real * s
    {
      assert tail[j] == xs[j + 1] == xs[0] + (j + 1) as real * s;
      assert (j + 1) as real * s == j as real * s + s;
    }
  }

  lemma ConsProgression(h: real, t: seq<real>, s: real)
    requires IsProgression(t, s)
    requires |t| > 0 ==> t[0] == h + s
    ensures IsProgression([h] + t, s)
  {
    var r := [h] + t;
    forall j | 0 <= j < |r|
      ensures r[j] == r[0] + j as real * s
    {
      if j > 0 {
        assert r[j] == t[j - 1] == t[0] + (j - 1) as real * s;
        assert (j - 1) as real * s + s == j as real * s;
      }
    }
  }

  /** A progression with a positive step is strictly ascending. */
  lemma ProgressionAscending(xs: seq<real>, s: real)
    requires s > 0.0 && IsProgression(xs, s)
    ensures forall j, k :: 0 <= j < k < |xs| ==> xs[j] < xs[k]
  {
    forall j, k | 0 <= j < k < |xs|
      ensures xs[j] < xs[k]
    {
      ProgressionLess(xs, s, j, k);
    }
  }

  lemma ProgressionLess(xs: seq<real>, s: real, j: int, k: int)
    requires s > 0.0 && IsProgression(xs, s) && 0 <= j < k < |xs|
    ensures xs[j] < xs[k]
  {
    MulLess(j as real, k as real, s);
  }

  /** Selecting every element of a progression that falls in [lo, hi] leaves a
      progression with the same step: the kept elements are consecutive. */
  lemma {:induction false} SelectIntervalProgression(xs: seq<real>, s: real, lo: real, hi: real, keep: real -> bool)
    requires s > 0.0 && IsProgression(xs, s)
    requires forall e :: keep(e) <==> lo <= e <= hi
    ensures IsProgression(Select(xs, keep), s)
  {
    if |xs| > 0 {
      var tail := xs[1..];
      TailProgression(xs, s);
      SelectIntervalProgression(tail, s, lo, hi, keep);
      var rest := Select(tail, keep);
      if keep(xs[0]) {
        if |rest| > 0 {
          // every later element is larger than tail[0] = xs[0] + s, so if
          // tail[0] were above hi nothing of tail would be kept
          ProgressionAscending(xs, s);
          assert rest[0] in tail;
          assert tail[0] <= rest[0];
          assert keep(tail[0]);
          assert rest[0] == tail[0];
          assert tail[0] == xs[0] + s;
        }
        ConsProgression(xs[0], rest, s);
      }
    }
  }

  /** np.where(xs >= t)[0][0]: the first position holding a value >= t, or
      |xs| when there is none (where numpy raises IndexError). */
  function FirstAtLeast(xs: seq<real>, t: real): (j: nat)
    ensures j <= |xs|
    ensures j < |xs| ==> xs[j] >= t
    ensures forall m :: 0 <= m < j ==> xs[m] < t
  {
    if |xs| == 0 || xs[0] >= t then 0
    else 1 + FirstAtLeast(xs[1..], t)
  }

  /** x.min() */
  function Min(xs: seq<real>): (r: real)
    requires |xs| >= 1
    ensures r in xs
    ensures forall e :: e in xs ==> r <= e
  {
    if |xs| == 1 then xs[0]
    else
      var m := Min(xs[1..]);
      assert xs == [xs[0]] + xs[1..];
      if xs[0] <= m then xs[0] else m
  }

  /** x.max() */
  function Max(xs: seq<real>): (r: real)
    requires |xs| >= 1
    ensures r in xs
    ensures forall e :: e in xs ==> e <= r
  {
    if |xs| == 1 then xs[0]
    else
      var m := Max(xs[1..]);
      assert xs == [xs[0]] + xs[1..];
      if xs[0] >= m then xs[0] else m
  }

  /** How many points np.arange(start, stop, step) emits: the least count
      whose next point would reach stop. */
  function ARangeLength(start: real, stop: real, step: real): (count: nat)
    requires step > 0.0
    ensures count == 0 || start + (count - 1) as real * step < stop
    ensures stop <= start + count as real * step
  {
    if stop <= start then 0
    else
      var d := stop - start;
      var q := d / step;
      var count := Ceil(q);
      DivMul(d, step);
      ScaledBelow((count - 1) as real, q, step, d);
      ScaledAtLeast(count as real, q, step, d);
      count
  }

  /** Every point before the last one emitted also lies below stop. */
  lemma EarlierPointBelow(start: real, stop: real, step: real, count: nat, j: int)
    requires step > 0.0 && 0 <= j < count
    requires start + (count - 1) as real * step < stop
    ensures start + j as real * step < stop
  {
    MulLessEq(j as real, (count - 1) as real, step);
  }

  /** np.arange(start, stop, step) over exact reals: start + j*step for every
      j >= 0 with start + j*step < stop, and no more. */
  function ARange(start: real, stop: real, step: real): (r: seq<real>)
    requires step > 0.0
    ensures |r| > 0 ==> r[0] == start
    ensures IsProgression(r, step)
    ensures forall j :: 0 <= j < |r| ==> r[j] < stop
    ensures stop <= start + |r| as real * step
  {
    var count := ARangeLength(start, stop, step);
    var r := seq(count, j requires 0 <= j < count => start + j as real * step);
    forall j | 0 <= j < count
      ensures r[j] < stop
    {
      EarlierPointBelow(start, stop, step, count, j);
    }
    r
  }

  /** np.arange emits start + j*step for every j >= 0 that stays below stop. */
  lemma ARangeContains(start: real, stop: real, step: real, j: int)
    requires step > 0.0 && 0 <= j && start + j as real * step < stop
    ensures start + j as real * step in ARange(start, stop, step)
  {
    var r := ARange(start, stop, step);
    var count := |r|;
    assert stop <= start + count as real * step;
    if count <= j {
      MulLessEq(count as real, j as real, step);
      assert false;
    }
    ProgressionAt(r, step, j);
  }

  /** From an aligned start, np.arange emits only multiples of the step. */
  lemma ARangeMultiples(start: real, stop: real, step: real)
    requires step > 0.0 && IsMultipleOf(start, step)
    ensures forall e :: e in ARange(start, stop, step) ==> IsMultipleOf(e, step)
  {
    var r := ARange(start, stop, step);
    forall e | e in r
      ensures IsMultipleOf(e, step)
    {
      var g :| 0 <= g < |r| && r[g] == e;
      MultipleShift(start, step, g);
    }
  }

  /** `xs[abs(xs) < tol] = 0`: every element of magnitude below tol becomes 0. */
  function SnapZeros(xs: seq<real>, tol: real): (r: seq<real>)
    ensures |r| == |xs|
    ensures forall j :: 0 <= j < |r| ==> (r[j] != xs[j] <==> xs[j] != 0.0 && Abs(xs[j]) < tol)
    ensures forall j :: 0 <= j < |r| ==> r[j] == xs[j] || r[j] == 0.0
    ensures forall j :: 0 <= j < |r| ==> r[j] == 0.0 || Abs(r[j]) >= tol
  {
    seq(|xs|, j requires 0 <= j < |xs| => if Abs(xs[j]) < tol then 0.0 else xs[j])
  }

  /** Snapping twice is snapping once. */
  lemma SnapZerosIdempotent(xs: seq<real>, tol: real)
    ensures SnapZeros(SnapZeros(xs, tol), tol) == SnapZeros(xs, tol)
  {
  }

  /** Snapping keeps an ascending array ascending (non-strictly). */
  lemma SnapZerosKeepsOrder(xs: seq<real>, tol: real)
    requires Sorted(xs)
    ensures Sorted(SnapZeros(xs, tol))
  {
  }
}

=== FILE: pretty.dfy ===
/** The general Dixon-Kronmal breakpoint engine (`pretty` in pretty.py):
    pick the smallest step of the form p[i] * base^k, with an origin aligned
    to the step and centred on the data, whose window of n steps covers the
    data range; emit the window's grid clipped to one step around the range,
    with values of magnitude below tol snapped to 0. */
module Pretty {
  import opened RealMath
  import opened ArrayOps
  import opened Results

  /** Why a call is rejected.  The first five are the assertions of the Python
      function, in the order it checks them. */
  datatype Error =
    | TooFewSamples    // x.size < 2
    | BaseTooSmall     // base < 2
    | TooFewIntervals  // n < 2
    | EmptyRange       // R = max(x) - min(x) <= 0
    | NoCoefficients   // no coefficient of p lies in [1, base)
    | NeverCovers      // n == 2 and A + B < 0 < B: no candidate window reaches B

  /** The default arguments of the Python function. */
  const DefaultN: int := 5
  const DefaultP: seq<real> := [1.0, 2.0, 5.0]
  const DefaultBase: real := 10.0
  const DefaultTol: real := 0.000000001

  /** The mask of line 45: keep what lies in [1, base). */
  function Admissible(base: real): real -> bool {
    e => 1.0 <= e < base
  }

  /** Lines 44-45: np.sort(p) restricted to [1, base), the candidate rounding
      coefficients. */
  function Coefficients(p: seq<real>, base: real): (q: seq<real>)
    ensures Prepared(q, base)
  {
    var keep := Admissible(base);
    var q := Select(Sort(p), keep);
    forall j | 0 <= j < |q|
      ensures 1.0 <= q[j] < base
    {
      assert q[j] in q;
      assert keep(q[j]);
    }
    q
  }

  /** The coefficients kept are exactly the values of p in [1, base), each
      with its multiplicity in p. */
  lemma CoefficientsKept(p: seq<real>, base: real)
    ensures forall e :: multiset(Coefficients(p, base))[e] == if 1.0 <= e < base then multiset(p)[e] else 0
  {
    SelectCount(Sort(p), Admissible(base));
  }

  /** What line 46 leaves of p: ascending, every coefficient in [1, base). */
  predicate Prepared(p: seq<real>, base: real) {
    Sorted(p) && forall j :: 0 <= j < |p| ==> 1.0 <= p[j] < base
  }

  /** The validated inputs of one call: data range [A, B], interval count n,
      prepared coefficients p, radix base. */
  datatype Config = Config(A: real, B: real, n: int, p: seq<real>, base: real)
  {
    /** What the assertions guarantee once they have all passed. */
    predicate Valid() {
      && n >= 2
      && base >= 2.0
      && A < B
      && |p| >= 1
      && Prepared(p, base)
    }

    /** R = B - A */
    function Span(): real {
      B - A
    }

    /** R / n, the crude cell size */
    function Cell(): (r: real)
      requires n > 0
      ensures A < B ==> r > 0.0
    {
      if A < B then
        QuotientPositive(Span(), n as real);
        Span() / n as real
      else Span() / n as real
    }

    /** (B + A) / 2, the data midpoint */
    function Mid(): real {
      (B + A) / 2.0
    }
  }

  lemma CoefficientInRange(c: Config, j: int)
    requires c.Valid() && 0 <= j < |c.p|
    ensures 1.0 <= c.p[j] < c.base
  {
  }

  lemma CoefficientsAscend(c: Config, j: int, k: int)
    requires c.Valid() && 0 <= j <= k < |c.p|
    ensures c.p[j] <= c.p[k]
  {
  }

  lemma MaxInRange(c: Config)
    requires c.Valid()
    ensures 1.0 <= Max(c.p) < c.base
  {
    var j :| 0 <= j < |c.p| && c.p[j] == Max(c.p);
  }

  /** A candidate of the search: the 1-based coefficient index i and the exponent k. */
  datatype Candidate = Candidate(i: int, k: int)

  predicate ValidCandidate(c: Config, q: Candidate) {
    1 <= q.i <= |c.p|
  }

  /** s = p[i - 1] * base^k */
  function Step(c: Config, q: Candidate): (s: real)
    requires c.Valid() && ValidCandidate(c, q)
    ensures s >= Pow(c.base, q.k) > 0.0
  {
    var t := Pow(c.base, q.k);
    CoefficientInRange(c, q.i - 1);
    MulLessEq(1.0, c.p[q.i - 1], t);
    c.p[q.i - 1] * t
  }

  /** max(p) * base^k, the largest step at exponent k. */
  function TopStep(c: Config, k: int): real
    requires c.Valid()
  {
    Max(c.p) * Pow(c.base, k)
  }

  lemma StepAtMostTop(c: Config, q: Candidate)
    requires c.Valid() && ValidCandidate(c, q)
    ensures Step(c, q) <= TopStep(c, q.k)
  {
    assert c.p[q.i - 1] in c.p;
    MulLessEq(c.p[q.i - 1], Max(c.p), Pow(c.base, q.k));
  }

  lemma TopStepMonotone(c: Config, j: int, k: int)
    requires c.Valid() && j <= k
    ensures TopStep(c, j) <= TopStep(c, k)
  {
    hide Pow, Max;
    PowMonotone(c.base, j, k);
    MaxInRange(c);
    MulLeftLessEq(Max(c.p), Pow(c.base, j), Pow(c.base, k));
  }

  /** The order in which the search visits candidates: by exponent, then index. */
  predicate Precedes(q1: Candidate, q2: Candidate) {
    q1.k < q2.k || (q1.k == q2.k && q1.i < q2.i)
  }

  /** The candidate after q: the next coefficient, or wrap to the first one at
      the next exponent. */
  function Next(c: Config, q: Candidate): (r: Candidate)
    requires ValidCandidate(c, q)
    ensures ValidCandidate(c, r) && Precedes(q, r)
    ensures forall q' :: ValidCandidate(c, q') && Precedes(q, q') ==> q' == r || Precedes(r, q')
  {
    if q.i < |c.p| then Candidate(q.i + 1, q.k) else Candidate(1, q.k + 1)
  }

  /** Each candidate's step is at least the previous one's; wrapping from
      max(p) * base^k to p[0] * base^(k+1) strictly increases it. */
  lemma NextStepGrows(c: Config, q: Candidate)
    requires c.Valid() && ValidCandidate(c, q)
    ensures Step(c, q) <= Step(c, Next(c, q))
    ensures q.i == |c.p| ==> Step(c, q) < Step(c, Next(c, q))
  {
    if q.i < |c.p| {
      StepGrowsWithin(c, q);
    } else {
      StepGrowsOnWrap(c, q);
    }
  }

  lemma StepGrowsWithin(c: Config, q: Candidate)
    requires c.Valid() && 1 <= q.i < |c.p|
    ensures Step(c, q) <= Step(c, Candidate(q.i + 1, q.k))
  {
    var t := Pow(c.base, q.k);
    CoefficientsAscend(c, q.i - 1, q.i);
    MulLessEq(c.p[q.i - 1], c.p[q.i], t);
  }

  lemma StepGrowsOnWrap(c: Config, q: Candidate)
    requires c.Valid() && q.i == |c.p|
    ensures Step(c, q) < Step(c, Candidate(1, q.k + 1))
  {
    hide Pow;
    var t, u := Pow(c.base, q.k), Pow(c.base, q.k + 1);
    PowStep(c.base, q.k);
    CoefficientInRange(c, q.i - 1);
    CoefficientInRange(c, 0);
    WrapGrows(c.p[q.i - 1], c.p[0], c.base, t, u);
  }

  lemma WrapGrows(pi: real, p0: real, base: real, t: real, u: real)
    requires pi < base && 1.0 <= p0 && base > 0.0 && t > 0.0 && u == base * t
    ensures pi * t < p0 * u
  {
    MulLess(pi, base, t);
    MulLessEq(1.0, p0, u);
  }

  /** s * n, the width of a window of n steps of size s. */
  function Width(c: Config, s: real): real {
    s * c.n as real
  }

  lemma WidthMonotone(c: Config, s: real, t: real)
    requires c.n >= 0 && s <= t
    ensures Width(c, s) <= Width(c, t)
  {
    MulLessEq(s, t, c.n as real);
  }

  lemma WidthStrictlyMonotone(c: Config, s: real, t: real)
    requires c.n > 0 && s < t
    ensures Width(c, s) < Width(c, t)
  {
    MulLess(s, t, c.n as real);
  }

  /** n cells of size R/n make up R. */
  lemma CellWidth(c: Config)
    requires c.n > 0
    ensures Width(c, c.Cell()) == c.Span()
  {
    DivMul(c.Span(), c.n as real);
  }

  /** s * floor(y / s): the largest multiple of s not above y. */
  function AlignedOrigin(y: real, s: real): (a: real)
    requires s > 0.0
    ensures IsMultipleOf(a, s) && y - s < a <= y
  {
    var m := (y / s).Floor;
    FloorScaled(y, s);
    MultipleOfInt(m, s);
    m as real * s
  }

  /** The window of n steps of size s: the origin a is the largest multiple of
      s not above the point that centres the window on the midpoint, and
      b = a + s * n. */
  datatype Window = Window(step: real, origin: real, end: real)

  function WindowFor(c: Config, s: real): (w: Window)
    requires s > 0.0
    ensures w.step == s && IsMultipleOf(w.origin, s)
    ensures c.Mid() - Width(c, s) / 2.0 - s < w.origin <= c.Mid() - Width(c, s) / 2.0
    ensures w.end == w.origin + Width(c, s)
  {
    var a := AlignedOrigin(c.Mid() - Width(c, s) / 2.0, s);
    Window(s, a, a + Width(c, s))
  }

  /** The loop keeps searching while B > b. */
  predicate Covers(c: Config, q: Candidate)
    requires c.Valid() && ValidCandidate(c, q)
  {
    c.B <= WindowFor(c, Step(c, q)).end
  }

  /** A window whose n intervals are narrower than the data range ends below B. */
  lemma NarrowStepMisses(c: Config, s: real)
    requires s > 0.0 && Width(c, s) < c.Span()
    ensures WindowFor(c, s).end < c.B
  {
  }

  /** Over exact reals the search ends unless n == 2 and A + B < 0 < B. */
  predicate Terminates(c: Config) {
    c.n >= 3 || c.Mid() >= 0.0 || c.B <= 0.0
  }

  /** A step size from which on every window covers B. */
  function CoverThreshold(c: Config): (t: real)
    requires c.Valid() && Terminates(c)
    ensures t > 0.0
  {
    if c.n >= 3 then
      QuotientPositive(c.Span(), (c.n - 2) as real);
      c.Span() / (c.n - 2) as real
    else if c.Mid() >= 0.0 then c.B
    else -c.Mid()
  }

  /** The threshold is never below the crude cell size R/n. */
  lemma ThresholdAtLeastCell(c: Config)
    requires c.Valid() && Terminates(c)
    ensures c.Cell() <= CoverThreshold(c)
  {
    if c.n >= 3 {
      QuotientShrinks(c.Span(), (c.n - 2) as real, c.n as real);
    } else {
      CellWidth(c);
    }
  }

  /** With n >= 3 intervals, a step with s * (n - 2) >= R reaches B from any
      origin within one step below the centring point. */
  lemma ManyIntervalsCover(M: real, R: real, s: real, n: real, k: real, W: real, a: real)
    requires k == n - 2.0 && s > 0.0 && s * k >= R && W == s * n
    requires a > M - W / 2.0 - s
    ensures a + W > M + R / 2.0
  {
    assert s * k == s * n - 2.0 * s;
  }

  /** floor((M - s) / s) * s, the two-interval origin, by the sign of M. */
  lemma TwoIntervalOrigin(M: real, s: real)
    requires s > 0.0
    ensures 0.0 <= M < s ==> AlignedOrigin(M - s, s) == -s
    ensures -s <= M < 0.0 ==> AlignedOrigin(M - s, s) == -2.0 * s
    ensures M < 0.0 ==> AlignedOrigin(M - s, s) <= -2.0 * s
  {
    var y := M - s;
    var f := (y / s).Floor;
    assert AlignedOrigin(y, s) == f as real * s;
    if 0.0 <= M < s {
      QuotientAtLeast(y, s, -1.0);
      QuotientBelow(y, s, 0.0);
      assert f == -1;
    }
    if -s <= M < 0.0 {
      QuotientAtLeast(y, s, -2.0);
      QuotientBelow(y, s, -1.0);
      assert f == -2;
    }
    if M < 0.0 {
      QuotientBelow(y, s, -1.0);
      MulLessEq(f as real, -2.0, s);
    }
  }

  /** With two intervals the window is [a, a + 2s] with a = floor((M - s)/s) * s. */
  lemma TwoIntervalWindow(c: Config, s: real)
    requires c.n == 2 && s > 0.0
    ensures WindowFor(c, s).origin == AlignedOrigin(c.Mid() - s, s)
    ensures WindowFor(c, s).end == WindowFor(c, s).origin + 2.0 * s
  {
    assert Width(c, s) == 2.0 * s;
  }

  lemma ManyIntervalsLargeStep(c: Config, s: real)
    requires c.Valid() && c.n >= 3 && s >= CoverThreshold(c)
    ensures c.B <= WindowFor(c, s).end
  {
    var k := (c.n - 2) as real;
    AtLeastQuotient(c.Span(), k, s);
    ManyIntervalsCover(c.Mid(), c.Span(), s, c.n as real, k, Width(c, s), WindowFor(c, s).origin);
  }

  lemma TwoIntervalsLargeStep(c: Config, s: real)
    requires c.Valid() && c.n == 2 && Terminates(c) && s >= CoverThreshold(c)
    ensures c.B <= WindowFor(c, s).end
  {
    TwoIntervalWindow(c, s);
    TwoIntervalOrigin(c.Mid(), s);
  }

  /** Once the step reaches the threshold the window ends at or beyond B. */
  lemma LargeStepCovers(c: Config, s: real)
    requires c.Valid() && Terminates(c) && s >= CoverThreshold(c)
    ensures c.B <= WindowFor(c, s).end
  {
    if c.n >= 3 {
      ManyIntervalsLargeStep(c, s);
    } else {
      TwoIntervalsLargeStep(c, s);
    }
  }

  /** Over exact reals the Python loop never ends for n == 2 and A + B < 0 < B:
      every window, whatever its step, ends at or below 0. */
  lemma TwoIntervalsNeverCover(c: Config, s: real)
    requires c.Valid() && c.n == 2 && c.Mid() < 0.0 && s > 0.0
    ensures WindowFor(c, s).end <= 0.0
  {
    TwoIntervalWindow(c, s);
    TwoIntervalOrigin(c.Mid(), s);
  }

  /** When the search does not end, no candidate at all covers B. */
  lemma NoCandidateCovers(c: Config)
    requires c.Valid() && !Terminates(c)
    ensures forall q :: ValidCandidate(c, q) ==> !Covers(c, q)
  {
    forall q | ValidCandidate(c, q)
      ensures !Covers(c, q)
    {
      TwoIntervalsNeverCover(c, Step(c, q));
    }
  }

  /** An exponent at which every candidate covers. */
  function ExponentBound(c: Config): int
    requires c.Valid() && Terminates(c)
  {
    FloorLog(c.base, CoverThreshold(c)) + 1
  }

  /** A candidate that does not cover lies below the exponent bound. */
  lemma BelowExponentBound(c: Config, q: Candidate)
    requires c.Valid() && Terminates(c) && ValidCandidate(c, q) && !Covers(c, q)
    ensures q.k < ExponentBound(c)
  {
    if q.k >= ExponentBound(c) {
      CoversAtExponentBound(c, q);
    }
  }

  /** Every candidate at or past the exponent bound covers. */
  lemma CoversAtExponentBound(c: Config, q: Candidate)
    requires c.Valid() && Terminates(c) && ValidCandidate(c, q) && q.k >= ExponentBound(c)
    ensures Covers(c, q)
  {
    PowMonotone(c.base, ExponentBound(c), q.k);
    LargeStepCovers(c, Step(c, q));
  }

  /** How lines 51-54 choose between ti and ti + 1, on plain reals: t = base^ti,
      u = base^(ti-1), v = base^(ti+1), mx = max(p). */
  lemma ExponentChoiceReal(cell: real, base: real, mx: real, u: real, t: real, v: real)
    requires 1.0 <= mx < base && u > 0.0 && t == base * u && v == base * t
    requires t <= cell < v
    ensures cell / t <= mx ==> cell <= mx * t && mx * u < cell
    ensures mx < cell / t ==> cell <= mx * v && mx * t < cell
  {
    var q := cell / t;
    DivMul(cell, t);
    if q <= mx {
      ScaledAtLeast(mx, q, t, cell);
      MulLess(mx, base, u);
    } else {
      ScaledBelow(mx, q, t, cell);
      MulLessEq(1.0, mx, v);
    }
  }

  /** R/n / base^ti <= max(p): the largest coefficient reaches R/n at ti already. */
  lemma ChooseLowExponent(base: real, ti: int, cell: real, mx: real)
    requires base >= 2.0 && 1.0 <= mx < base
    requires Pow(base, ti) <= cell < Pow(base, ti + 1)
    requires cell / Pow(base, ti) <= mx
    ensures mx * Pow(base, ti - 1) < cell <= mx * Pow(base, ti)
  {
    hide Pow;
    PowStep(base, ti - 1);
    PowStep(base, ti);
    ExponentChoiceReal(cell, base, mx, Pow(base, ti - 1), Pow(base, ti), Pow(base, ti + 1));
  }

  /** R/n / base^ti > max(p): the largest coefficient reaches R/n only at ti + 1. */
  lemma ChooseHighExponent(base: real, ti: int, cell: real, mx: real)
    requires base >= 2.0 && 1.0 <= mx < base
    requires Pow(base, ti) <= cell < Pow(base, ti + 1)
    requires mx < cell / Pow(base, ti)
    ensures mx * Pow(base, ti) < cell <= mx * Pow(base, ti + 1)
  {
    hide Pow;
    PowStep(base, ti - 1);
    PowStep(base, ti);
    ExponentChoiceReal(cell, base, mx, Pow(base, ti - 1), Pow(base, ti), Pow(base, ti + 1));
  }

  /** Lines 49-54: ti = floor(log_base(R/n)), then k = ti if R/n/base^ti <= max(p)
      and ti + 1 otherwise. */
  function StartExponent(c: Config): (k: int)
    requires c.Valid()
    ensures var ti := FloorLog(c.base, c.Cell()); k == ti || k == ti + 1
  {
    var ti := FloorLog(c.base, c.Cell());
    if c.Cell() / Pow(c.base, ti) <= Max(c.p) then ti else ti + 1
  }

  /** The starting exponent is the one at which the largest step
      max(p) * base^k first reaches R/n. */
  lemma StartExponentBrackets(c: Config)
    requires c.Valid()
    ensures TopStep(c, StartExponent(c) - 1) < c.Cell() <= TopStep(c, StartExponent(c))
  {
    hide Pow, FloorLog, Max;
    var cell, ti, mx := c.Cell(), FloorLog(c.base, c.Cell()), Max(c.p);
    MaxInRange(c);
    if cell / Pow(c.base, ti) <= mx {
      ChooseLowExponent(c.base, ti, cell, mx);
    } else {
      ChooseHighExponent(c.base, ti, cell, mx);
    }
  }

  /** Below the starting exponent even the largest coefficient falls short of R/n. */
  lemma BelowStartExponent(c: Config, j: int)
    requires c.Valid() && j < StartExponent(c)
    ensures TopStep(c, j) < c.Cell()
  {
    StartExponentBrackets(c);
    TopStepMonotone(c, j, StartExponent(c) - 1);
  }

  /** Line 56: i is the 1-based position of the first coefficient whose step
      at exponent k reaches R/n (|p| + 1 when there is none). */
  function StartIndex(c: Config, k: int): (i: int)
    requires c.Valid()
    ensures 1 <= i <= |c.p| + 1
  {
    FirstAtLeast(c.p, c.Cell() / Pow(c.base, k)) + 1
  }

  /** At an exponent where max(p) reaches R/n the index is a real position,
      and its step reaches R/n. */
  lemma StartIndexReaches(c: Config, k: int)
    requires c.Valid() && c.Cell() <= TopStep(c, k)
    ensures ValidCandidate(c, Candidate(StartIndex(c, k), k))
    ensures c.Cell() <= Step(c, Candidate(StartIndex(c, k), k))
  {
    hide Prepared, Pow, Config.Cell, Max;
    var t, cell := Pow(c.base, k), c.Cell();
    var threshold := cell / t;
    DivMul(cell, t);
    var mx := Max(c.p);
    var m :| 0 <= m < |c.p| && c.p[m] == mx;
    assert mx >= threshold by {
      if mx < threshold {
        ScaledBelow(mx, threshold, t, cell);
      }
    }
    var j := FirstAtLeast(c.p, threshold);
    assert j <= m;
    ScaledAtLeast(c.p[j], threshold, t, cell);
  }

  /** Every coefficient before the index falls short of R/n at exponent k. */
  lemma BeforeStartIndex(c: Config, k: int, j: int)
    requires c.Valid() && 1 <= j < StartIndex(c, k) && j <= |c.p|
    ensures Step(c, Candidate(j, k)) < c.Cell()
  {
    var t, cell := Pow(c.base, k), c.Cell();
    var threshold := cell / t;
    DivMul(cell, t);
    ScaledBelow(c.p[j - 1], threshold, t, cell);
  }

  /** The first candidate the loop tries. */
  function Start(c: Config): Candidate
    requires c.Valid()
  {
    var k := StartExponent(c);
    Candidate(StartIndex(c, k), k)
  }

  /** The first candidate is a real one, and its step reaches R/n. */
  lemma StartReaches(c: Config)
    requires c.Valid()
    ensures ValidCandidate(c, Start(c)) && c.Cell() <= Step(c, Start(c))
  {
    StartExponentBrackets(c);
    StartIndexReaches(c, StartExponent(c));
  }

  /** The first candidate's n intervals already span the data range. */
  lemma StartSpansRange(c: Config)
    requires c.Valid()
    ensures ValidCandidate(c, Start(c)) && c.Span() <= Width(c, Step(c, Start(c)))
  {
    StartReaches(c);
    CellWidth(c);
    WidthMonotone(c, c.Cell(), Step(c, Start(c)));
  }

  /** Every candidate the loop skips, by starting where it does, has a step
      below R/n. */
  lemma BeforeStartTooSmall(c: Config, q: Candidate)
    requires c.Valid() && ValidCandidate(c, q) && Precedes(q, Start(c))
    ensures Step(c, q) < c.Cell()
  {
    var k := StartExponent(c);
    if q.k < k {
      BelowStartExponent(c, q.k);
      StepAtMostTop(c, q);
    } else {
      BeforeStartIndex(c, k, q.i);
    }
  }

  lemma StartBelowExponentBound(c: Config)
    requires c.Valid() && Terminates(c)
    ensures Start(c).k <= ExponentBound(c)
  {
    ThresholdAtLeastCell(c);
    FloorLogMonotone(c.base, c.Cell(), CoverThreshold(c));
  }

  /** Lines 59-68 as a recursive search: the first candidate, from q on in
      visiting order, whose window covers B.  Steps never shrink along the way. */
  function Search(c: Config, q: Candidate): (r: Candidate)
    requires c.Valid() && Terminates(c) && ValidCandidate(c, q)
    requires q.k <= ExponentBound(c)
    ensures ValidCandidate(c, r) && Covers(c, r)
    ensures r == q || Precedes(q, r)
    ensures Step(c, q) <= Step(c, r)
    ensures forall q' :: ValidCandidate(c, q') && !Precedes(q', q) && Precedes(q', r) ==> !Covers(c, q')
    decreases ExponentBound(c) - q.k, |c.p| - q.i
  {
    if Covers(c, q) then q
    else
      BelowExponentBound(c, q);
      NextStepGrows(c, q);
      Search(c, Next(c, q))
  }

  /** The candidate the loop stops at. */
  function FinalCandidate(c: Config): Candidate
    requires c.Valid() && Terminates(c)
  {
    StartReaches(c);
    StartBelowExponentBound(c);
    Search(c, Start(c))
  }

  /** The loop stops at the least candidate, in its visiting order (k, then i),
      whose window covers B: those before the start have steps below R/n, and
      the search rejects each one from the start on. */
  lemma FinalCandidateIsFirst(c: Config, q: Candidate)
    requires c.Valid() && Terminates(c) && ValidCandidate(c, q)
    ensures ValidCandidate(c, FinalCandidate(c)) && Covers(c, FinalCandidate(c))
    ensures Precedes(q, FinalCandidate(c)) ==> !Covers(c, q)
  {
    StartReaches(c);
    StartBelowExponentBound(c);
    if Precedes(q, Start(c)) {
      BeforeStartTooSmall(c, q);
      WidthStrictlyMonotone(c, Step(c, q), c.Cell());
      CellWidth(c);
      NarrowStepMisses(c, Step(c, q));
    }
  }

  /** The window is aligned to its step, n steps wide, and covers [A, B]. */
  predicate Frames(c: Config, w: Window) {
    && w.step > 0.0
    && IsMultipleOf(w.origin, w.step)
    && w.end - w.origin == Width(c, w.step)
    && w.origin <= c.A && c.B <= w.end
  }

  /** The window the loop stops at. */
  function FinalWindow(c: Config): Window
    requires c.Valid() && Terminates(c)
  {
    StartReaches(c);
    StartBelowExponentBound(c);
    WindowFor(c, Step(c, Search(c, Start(c))))
  }

  /** The final window is aligned to its step, n steps wide, covers [A, B],
      and its n intervals span at least R. */
  lemma FinalWindowFrames(c: Config)
    requires c.Valid() && Terminates(c)
    ensures Frames(c, FinalWindow(c))
    ensures c.Span() <= Width(c, FinalWindow(c).step)
  {
    StartSpansRange(c);
    StartBelowExponentBound(c);
    var s := Step(c, Search(c, Start(c)));
    WidthMonotone(c, Step(c, Start(c)), s);
  }

  /** The window of lines 61-63 for the current (i, k). */
  lemma LoopWindow(c: Config, q: Candidate, s: real, a: real, b: real)
    requires c.Valid() && ValidCandidate(c, q)
    requires s == c.p[q.i - 1] * Pow(c.base, q.k)
    requires a == s * (((c.B + c.A) / 2.0 - s * c.n as real / 2.0) / s).Floor as real
    requires b == a + s * c.n as real
    ensures Window(s, a, b) == WindowFor(c, Step(c, q))
  {
    hide Prepared, Pow;
    assert Step(c, q) == s;
    var y := c.Mid() - Width(c, s) / 2.0;
    assert y == (c.B + c.A) / 2.0 - s * c.n as real / 2.0;
    assert AlignedOrigin(y, s) == a;
  }

  /** Lines 61-63: the step, origin and end for the current (i, k). */
  method LoopStep(c: Config, i: int, k: int) returns (s: real, a: real, b: real)
    requires c.Valid() && ValidCandidate(c, Candidate(i, k))
    ensures Window(s, a, b) == WindowFor(c, Step(c, Candidate(i, k)))
  {
    s := c.p[i - 1] * Pow(c.base, k);
    CoefficientInRange(c, i - 1);
    MulLessEq(1.0, c.p[i - 1], Pow(c.base, k));
    a := s * (((c.B + c.A) / 2.0 - s * c.n as real / 2.0) / s).Floor as real;
    b := a + s * c.n as real;
    LoopWindow(c, Candidate(i, k), s, a, b);
  }

  /** The Python loop, statement for statement: b starts at B - 1 so the body
      runs at least once; each pass computes s, a, b for the current (i, k)
      and then advances (i, k) whether or not the window covers.  After every
      pass 1 <= i <= |p|, a is a multiple of s, b - a == s * n >= R and hence
      a <= A; the loop ends on the window the search picks. */
  method Widen(c: Config) returns (s: real, a: real, b: real)
    requires c.Valid() && Terminates(c)
    ensures Window(s, a, b) == FinalWindow(c)
    ensures s > 0.0 && IsMultipleOf(a, s) && b - a == Width(c, s)
    ensures c.Span() <= Width(c, s) && a <= c.A && c.B <= b
  {
    hide Search;
    var k := StartExponent(c);
    var i := StartIndex(c, k);
    ghost var first := Start(c);
    ghost var kmax := ExponentBound(c);
    ghost var last := first;
    ghost var started := false;
    StartReaches(c);
    StartSpansRange(c);
    StartBelowExponentBound(c);
    b := c.B - 1.0;
    s, a := 0.0, 0.0;
    while c.B > b
      invariant ValidCandidate(c, Candidate(i, k))
      invariant !started ==> Candidate(i, k) == first && b == c.B - 1.0
      invariant started ==> ValidCandidate(c, last) && last.k <= kmax
      invariant started ==> Candidate(i, k) == Next(c, last)
      invariant started ==> Window(s, a, b) == WindowFor(c, Step(c, last))
      invariant started ==> Search(c, first) == Search(c, last)
      invariant started ==> Step(c, first) <= Step(c, last)
      invariant started ==> s > 0.0 && IsMultipleOf(a, s) && b - a == Width(c, s)
      invariant started ==> c.Span() <= Width(c, s) && a <= c.A
      invariant k <= kmax || (started && c.B <= b)
      decreases kmax + 1 - k, |c.p| - i
    {
      if started {
        BelowExponentBound(c, last);
        SearchSkips(c, last);
        NextStepGrows(c, last);
      }
      s, a, b := LoopStep(c, i, k);
      last := Candidate(i, k);
      started := true;
      WidthMonotone(c, Step(c, first), s);
      if i < |c.p| {
        i := i + 1;
      } else {
        i := 1;
        k := k + 1;
      }
      if k == kmax + 1 {
        CoversAtExponentBound(c, last);
      }
    }
    SearchStops(c, last);
  }

  /** A candidate that does not cover hands the search on to the next one. */
  lemma SearchSkips(c: Config, q: Candidate)
    requires c.Valid() && Terminates(c) && ValidCandidate(c, q) && !Covers(c, q)
    requires q.k < ExponentBound(c)
    ensures Search(c, q) == Search(c, Next(c, q))
  {
  }

  /** A candidate that covers ends the search. */
  lemma SearchStops(c: Config, q: Candidate)
    requires c.Valid() && Terminates(c) && ValidCandidate(c, q) && Covers(c, q)
    requires q.k <= ExponentBound(c)
    ensures Search(c, q) == q
  {
  }

  /** The mask of line 72: keep what lies in [A - s, B + s]. */
  function Band(c: Config, s: real): real -> bool {
    e => c.A - s <= e <= c.B + s
  }

  /** Lines 71-72: np.arange(a, b + 1, s) masked to the band. */
  function Ticks(c: Config, w: Window): seq<real>
    requires w.step > 0.0
  {
    Select(ARange(w.origin, w.end + 1.0, w.step), Band(c, w.step))
  }

  /** Every tick is a multiple of s within one step of [A, B]. */
  lemma TickInBand(c: Config, w: Window, e: real)
    requires w.step > 0.0 && IsMultipleOf(w.origin, w.step) && e in Ticks(c, w)
    ensures c.A - w.step <= e <= c.B + w.step && IsMultipleOf(e, w.step)
  {
    ARangeMultiples(w.origin, w.end + 1.0, w.step);
    assert Band(c, w.step)(e);
  }

  /** The ticks are consecutive grid points: a progression with gap s. */
  lemma TicksProgression(c: Config, w: Window)
    requires w.step > 0.0
    ensures IsProgression(Ticks(c, w), w.step)
  {
    var s := w.step;
    BandIsInterval(c, s);
    SelectIntervalProgression(ARange(w.origin, w.end + 1.0, s), s, c.A - s, c.B + s, Band(c, s));
  }

  lemma BandIsInterval(c: Config, s: real)
    ensures forall e :: Band(c, s)(e) <==> c.A - s <= e <= c.B + s
  {
  }

  /** The grid point a + j*s is a tick when it lies in the band and below b + 1. */
  lemma GridPointIsTick(c: Config, w: Window, j: int)
    requires w.step > 0.0 && 0 <= j
    requires w.origin + j as real * w.step < w.end + 1.0
    requires c.A - w.step <= w.origin + j as real * w.step <= c.B + w.step
    ensures w.origin + j as real * w.step in Ticks(c, w)
  {
    hide ARange;
    var e := w.origin + j as real * w.step;
    var grid := ARange(w.origin, w.end + 1.0, w.step);
    ARangeContains(w.origin, w.end + 1.0, w.step, j);
    assert Band(c, w.step)(e);
    SelectKeeps(grid, Band(c, w.step), e);
  }

  /** A point x of [A, B] has a tick in (x - s, x]. */
  lemma TickAtOrBelow(c: Config, w: Window, x: real)
    requires Frames(c, w) && c.A <= x <= c.B
    ensures exists e :: e in Ticks(c, w) && x - w.step < e <= x
  {
    hide Ticks, Width, IsMultipleOf, Select, ARange, IsProgression, Sorted, Band;
    var j := StepsUpTo(w.origin, w.step, x);
    var e := w.origin + j as real * w.step;
    assert c.A - w.step < e <= c.B <= w.end;
    GridPointIsTick(c, w, j);
  }

  /** A point x of [A, B] has a tick in [x, x + s). */
  lemma TickAtOrAbove(c: Config, w: Window, x: real)
    requires Frames(c, w) && c.A <= x <= c.B
    ensures exists e :: e in Ticks(c, w) && x <= e < x + w.step
  {
    var j := StepsFrom(w.origin, w.step, x, c.n);
    var e := w.origin + j as real * w.step;
    assert c.A <= x <= e < x + w.step <= c.B + w.step;
    StepWithinWindow(w.origin, w.step, j, c.n, w.end);
    GridPointIsTick(c, w, j);
  }

  /** A grid point at most n steps past the origin lies inside a window n steps wide. */
  lemma StepWithinWindow(a: real, s: real, j: int, n: int, end: real)
    requires s > 0.0 && 0 <= j <= n && end - a == s * n as real
    ensures a + j as real * s <= end
  {
    MulLessEq(j as real, n as real, s);
  }

  /** Of the ticks of a window that frames [A, B], there are at least two,
      the first lies within one step below A and the last within one step
      above B. */
  lemma TicksBracket(c: Config, w: Window)
    requires Frames(c, w) && c.A < c.B
    ensures var t, s := Ticks(c, w), w.step;
      && |t| >= 2
      && c.A - s <= t[0] <= c.A
      && c.B <= t[|t| - 1] <= c.B + s
  {
    hide Sorted;
    var t, s := Ticks(c, w), w.step;
    TicksProgression(c, w);
    TickAtOrBelow(c, w, c.A);
    TickAtOrAbove(c, w, c.B);
    var eA :| eA in t && c.A - s < eA <= c.A;
    var eB :| eB in t && c.B <= eB < c.B + s;
    var iA :| 0 <= iA < |t| && t[iA] == eA;
    var iB :| 0 <= iB < |t| && t[iB] == eB;
    if iB < iA {
      ProgressionLess(t, s, iB, iA);
    }
    if 0 < iA {
      ProgressionLess(t, s, 0, iA);
    }
    if iB < |t| - 1 {
      ProgressionLess(t, s, iB, |t| - 1);
    }
    TickInBand(c, w, t[0]);
    TickInBand(c, w, t[|t| - 1]);
  }

  /** The ticks of a window that frames [A, B]: at least two, an ascending
      progression with gap s of multiples of s inside [A - s, B + s], the
      first within one step below A and the last within one step above B. */
  lemma TicksFacts(c: Config, w: Window)
    requires Frames(c, w) && c.A < c.B
    ensures var t, s := Ticks(c, w), w.step;
      && |t| >= 2
      && IsProgression(t, s)
      && (forall j :: 0 <= j < |t| ==> IsMultipleOf(t[j], s) && c.A - s <= t[j] <= c.B + s)
      && c.A - s <= t[0] <= c.A
      && c.B <= t[|t| - 1] <= c.B + s
  {
    var t, s := Ticks(c, w), w.step;
    TicksBracket(c, w);
    TicksProgression(c, w);
    forall j | 0 <= j < |t|
      ensures IsMultipleOf(t[j], s) && c.A - s <= t[j] <= c.B + s
    {
      TickInBand(c, w, t[j]);
    }
  }

  /** The breakpoints before zero-snapping. */
  function Breaks(c: Config): seq<real>
    requires c.Valid() && Terminates(c)
  {
    FinalWindowFrames(c);
    Ticks(c, FinalWindow(c))
  }

  /** The breakpoints are at least two, a strictly ascending progression
      whose gap s is the final step, every one a multiple of s inside
      [min(x) - s, max(x) + s], the first within one step below min(x) and
      the last within one step above max(x). */
  lemma BreaksFacts(c: Config)
    requires c.Valid() && Terminates(c)
    ensures var t, s := Breaks(c), FinalWindow(c).step;
      && s > 0.0
      && |t| >= 2
      && IsProgression(t, s)
      && (forall j, k :: 0 <= j < k < |t| ==> t[j] < t[k])
      && (forall j :: 0 <= j < |t| ==> IsMultipleOf(t[j], s) && c.A - s <= t[j] <= c.B + s)
      && c.A - s <= t[0] <= c.A
      && c.B <= t[|t| - 1] <= c.B + s
  {
    FinalWindowFrames(c);
    TicksFacts(c, FinalWindow(c));
    ProgressionAscending(Breaks(c), FinalWindow(c).step);
  }

  /** "About n" intervals: the output has at most n + 3 breakpoints.  They
      lie s apart inside [A - s, B + s], and the final window's n steps
      already span R, so they cover at most n + 2 steps. */
  lemma BreaksCount(c: Config)
    requires c.Valid() && Terminates(c)
    ensures |Breaks(c)| <= c.n + 3
  {
    hide Breaks, FinalWindow, IsMultipleOf, Prepared, Pow, Step, Search, Start;
    var t, s := Breaks(c), FinalWindow(c).step;
    BreaksFacts(c);
    FinalWindowFrames(c);
    ProgressionAt(t, s, |t| - 1);
    var m := (|t| - 1) as real;
    assert t[|t| - 1] == t[0] + m * s;
    StepsInBand(t[0], t[|t| - 1], m, s, c.A, c.B, c.n as real);
  }

  /** Points m steps of s apart inside [A - s, B + s], with B - A <= s * n,
      are at most n + 2 steps apart. */
  lemma StepsInBand(lo: real, hi: real, m: real, s: real, A: real, B: real, n: real)
    requires s > 0.0 && hi == lo + m * s
    requires A - s <= lo && hi <= B + s && B - A <= s * n
    ensures m <= n + 2.0
  {
    var k := n + 2.0;
    assert m * s <= k * s;
    if m > k {
      MulLess(k, m, s);
      assert false;
    }
  }

  /** The configuration the checks at lines 33-46 produce. */
  function ConfigOf(x: seq<real>, n: int, p: seq<real>, base: real): Config
    requires |x| >= 1
  {
    Config(Min(x), Max(x), n, Coefficients(p, base), base)
  }

  /** pretty(x, n, p, base, tol).  Rejects what the assertions reject, in
      their order, and the inputs for which the search never ends over exact
      reals; otherwise returns the breakpoints with values of magnitude below
      tol replaced by 0. */
  function Pretty(x: seq<real>, n: int, p: seq<real>, base: real, tol: real): (r: Result<seq<real>, Error>)
    ensures r == Failure(TooFewSamples) <==> |x| < 2
    ensures r == Failure(BaseTooSmall) <==> |x| >= 2 && base < 2.0
    ensures r == Failure(TooFewIntervals) <==> |x| >= 2 && base >= 2.0 && n < 2
    ensures r == Failure(EmptyRange) <==> |x| >= 2 && base >= 2.0 && n >= 2 && Max(x) - Min(x) <= 0.0
    ensures r == Failure(NoCoefficients)
      <==> |x| >= 2 && base >= 2.0 && n >= 2 && Max(x) - Min(x) > 0.0 && |Coefficients(p, base)| == 0
    ensures r == Failure(NeverCovers)
      <==> |x| >= 2 && ConfigOf(x, n, p, base).Valid() && !Terminates(ConfigOf(x, n, p, base))
    ensures r.Success? <==> |x| >= 2 && ConfigOf(x, n, p, base).Valid() && Terminates(ConfigOf(x, n, p, base))
  {
    if |x| < 2 then Failure(TooFewSamples)
    else if base < 2.0 then Failure(BaseTooSmall)
    else if n < 2 then Failure(TooFewIntervals)
    else
      var A, B := Min(x), Max(x);
      if B - A <= 0.0 then Failure(EmptyRange)
      else
        var q := Coefficients(p, base);
        if |q| < 1 then Failure(NoCoefficients)
        else
          var c := Config(A, B, n, q, base);
          if !Terminates(c) then Failure(NeverCovers)
          else Success(SnapZeros(Breaks(c), tol))
  }

  /** What a successful call returns: between two and n + 3 breakpoints,
      ascending, with those of magnitude below tol (and only those) replaced
      by 0. */
  lemma PrettyOutput(x: seq<real>, n: int, p: seq<real>, base: real, tol: real)
    requires Pretty(x, n, p, base, tol).Success?
    ensures var r, t := Pretty(x, n, p, base, tol).value, Breaks(ConfigOf(x, n, p, base));
      && |r| == |t| >= 2
      && |r| <= n + 3
      && Sorted(r)
      && (forall j :: 0 <= j < |r| ==> (r[j] != t[j] <==> t[j] != 0.0 && Abs(t[j]) < tol))
      && (forall j :: 0 <= j < |r| ==> r[j] == t[j] || r[j] == 0.0)
  {
    var c := ConfigOf(x, n, p, base);
    var t := Breaks(c);
    BreaksFacts(c);
    BreaksCount(c);
    ProgressionAscending(t, FinalWindow(c).step);
    SnapZerosKeepsOrder(t, tol);
  }
}

=== FILE: pretty_examples.dfy ===
/** The examples in the docstring of pretty.py, evaluated over exact reals on
    x = 1, 2, ..., 100 (np.arange(1, 101)): A = 1, B = 100, R = 99; and one
    rerun of pretty on an output of its own. */
module PrettyExamples {
  import opened RealMath
  import opened ArrayOps
  import opened Results
  import opened Pretty

  /** np.arange(1, 101) */
  function OneToHundred(): seq<real> {
    seq(100, j requires 0 <= j => (j + 1) as real)
  }

  lemma OneToHundredRange()
    ensures Min(OneToHundred()) == 1.0 && Max(OneToHundred()) == 100.0
  {
    var x := OneToHundred();
    assert x[0] in x && x[99] in x;
    var lo, hi := Min(x), Max(x);
    var j :| 0 <= j < |x| && x[j] == lo;
    var m :| 0 <= m < |x| && x[m] == hi;
  }

  /** Keeping every element keeps the array as it is. */
  lemma {:induction false} SelectAll(xs: seq<real>, keep: real -> bool)
    requires forall j :: 0 <= j < |xs| ==> keep(xs[j])
    ensures Select(xs, keep) == xs
  {
    if |xs| > 0 {
      SelectAll(xs[1..], keep);
    }
  }

  /** Coefficients already ascending and inside [1, base) pass lines 44-45
      unchanged. */
  lemma CoefficientsOfPrepared(p: seq<real>, base: real)
    requires Prepared(p, base)
    ensures Coefficients(p, base) == p
  {
    SortSorted(p);
    SelectAll(p, Admissible(base));
  }

  /** When the first candidate's window already covers B, the loop runs once
      and the breaks are the ticks of that window. */
  lemma BreaksWhenStartCovers(c: Config)
    requires c.Valid() && Terminates(c)
    requires ValidCandidate(c, Start(c)) && Covers(c, Start(c))
    ensures Breaks(c) == Ticks(c, WindowFor(c, Step(c, Start(c))))
  {
    StartBelowExponentBound(c);
    SearchStops(c, Start(c));
  }

  /** np.arange(start, stop, step) has m points when stop lies in
      (start + (m - 1) * step, start + m * step]. */
  lemma ARangeOf(start: real, stop: real, step: real, m: nat)
    requires step > 0.0 && m > 0
    requires start + (m - 1) as real * step < stop <= start + m as real * step
    ensures var r := ARange(start, stop, step);
      |r| == m && forall j :: 0 <= j < m ==> r[j] == start + j as real * step
  {
    hide ARange, IsProgression;
    var r := ARange(start, stop, step);
    var count := |r|;
    if count < m {
      MulLessEq(count as real, (m - 1) as real, step);
      assert false;
    } else if count > m {
      ProgressionAt(r, step, m);
      MulLessEq(m as real, (count - 1) as real, step);
      assert false;
    }
    forall j | 0 <= j < m
      ensures r[j] == start + j as real * step
    {
      ProgressionAt(r, step, j);
    }
  }

  /** When every point of np.arange(a, b + 1, s) lies in the band, the
      ticks are all of them. */
  lemma TicksOf(c: Config, w: Window)
    requires w.step > 0.0
    requires var r := ARange(w.origin, w.end + 1.0, w.step);
      forall j :: 0 <= j < |r| ==> Band(c, w.step)(r[j])
    ensures Ticks(c, w) == ARange(w.origin, w.end + 1.0, w.step)
  {
    hide ARange, Band, IsProgression, Sorted;
    SelectAll(ARange(w.origin, w.end + 1.0, w.step), Band(c, w.step));
  }

  /** When the first point of np.arange(a, b + 1, s) falls below the band
      and the others lie in it, the ticks are all but the first. */
  lemma TicksAfterFirst(c: Config, w: Window)
    requires w.step > 0.0
    requires var r := ARange(w.origin, w.end + 1.0, w.step);
      && |r| >= 1 && !Band(c, w.step)(r[0])
      && forall j :: 1 <= j < |r| ==> Band(c, w.step)(r[j])
    ensures Ticks(c, w) == ARange(w.origin, w.end + 1.0, w.step)[1..]
  {
    var r := ARange(w.origin, w.end + 1.0, w.step);
    var keep := Band(c, w.step);
    TicksUnfold(c, w);
    SelectHead(r, keep);
    forall j | 0 <= j < |r| - 1
      ensures keep(r[1..][j])
    {
      assert r[1..][j] == r[j + 1];
    }
    SelectAll(r[1..], keep);
  }

  lemma TicksUnfold(c: Config, w: Window)
    requires w.step > 0.0
    ensures Ticks(c, w) == Select(ARange(w.origin, w.end + 1.0, w.step), Band(c, w.step))
  {
  }

  /** One step of the mask: the head is kept or dropped by its own test. */
  lemma SelectHead(xs: seq<real>, keep: real -> bool)
    requires |xs| >= 1
    ensures Select(xs, keep) == (if keep(xs[0]) then [xs[0]] else []) + Select(xs[1..], keep)
  {
  }

  /** The points of np.arange(a, b + 1, s) from the f-th on lie in the band
      when it has m of them and the f-th and the last do. */
  lemma ARangeInBand(c: Config, w: Window, m: nat, f: nat)
    requires w.step > 0.0 && f < m
    requires w.origin + (m - 1) as real * w.step < w.end + 1.0 <= w.origin + m as real * w.step
    requires c.A - w.step <= w.origin + f as real * w.step
    requires w.origin + (m - 1) as real * w.step <= c.B + w.step
    ensures var r := ARange(w.origin, w.end + 1.0, w.step);
      forall j :: f <= j < |r| ==> Band(c, w.step)(r[j])
  {
    var r := ARange(w.origin, w.end + 1.0, w.step);
    ARangeOf(w.origin, w.end + 1.0, w.step, m);
    assert |r| == m;
    forall j | f <= j < |r|
      ensures Band(c, w.step)(r[j])
    {
      PointInBand(c, w.step, w.origin, m, f, j, r[j]);
    }
  }

  /** A point between the f-th and the m-th lies in the band when those two do. */
  lemma PointInBand(c: Config, s: real, a: real, m: nat, f: nat, j: int, e: real)
    requires s > 0.0 && f <= j < m && e == a + j as real * s
    requires c.A - s <= a + f as real * s && a + (m - 1) as real * s <= c.B + s
    ensures Band(c, s)(e)
  {
    var fr, jr, lr := f as real, j as real, (m - 1) as real;
    MulLessEq(fr, jr, s);
    MulLessEq(jr, lr, s);
    assert c.A - s <= e <= c.B + s;
  }

  /** The window of step s whose centring point lies in [a, a + s), for a
      multiple a of s. */
  lemma WindowOf(c: Config, s: real, a: real)
    requires s > 0.0 && IsMultipleOf(a, s)
    requires a <= c.Mid() - Width(c, s) / 2.0 < a + s
    ensures WindowFor(c, s) == Window(s, a, a + Width(c, s))
  {
    var o := WindowFor(c, s).origin;
    if o < a {
      MultiplesApart(o, a, s);
    } else if a < o {
      MultiplesApart(a, o, s);
    }
  }

  /** Nothing of magnitude at least tol, other than 0, moves. */
  lemma SnapZerosKeeps(xs: seq<real>, tol: real)
    requires forall j :: 0 <= j < |xs| ==> xs[j] == 0.0 || Abs(xs[j]) >= tol
    ensures SnapZeros(xs, tol) == xs
  {
  }

  /** pretty(x) == [0, 20, 40, 60, 80, 100]: R/n = 19.8, k = 1, i = 2, s = 20,
      a = 0, b = 100. */
  lemma DefaultExample()
    ensures Pretty.Pretty(OneToHundred(), DefaultN, DefaultP, DefaultBase, DefaultTol)
      == Success([0.0, 20.0, 40.0, 60.0, 80.0, 100.0])
  {
    hide Min, Max, Breaks, Sort, Select;
    var x := OneToHundred();
    OneToHundredRange();
    CoefficientsOfPrepared(DefaultP, DefaultBase);
    var c := Config(1.0, 100.0, 5, DefaultP, 10.0);
    var t := DefaultBreaks(c);
    SnapZerosKeeps(t, DefaultTol);
  }

  lemma DefaultBreaks(c: Config) returns (t: seq<real>)
    requires c == Config(1.0, 100.0, 5, [1.0, 2.0, 5.0], 10.0)
    ensures c.Valid() && Terminates(c) && t == Breaks(c)
    ensures t == [0.0, 20.0, 40.0, 60.0, 80.0, 100.0]
  {
    hide Ticks, Breaks;
    DefaultStart(c);
    WindowOf(c, 20.0, 0.0);
    BreaksWhenStartCovers(c);
    var w := Window(20.0, 0.0, 100.0);
    ARangeOf(0.0, 101.0, 20.0, 6);
    ARangeInBand(c, w, 6, 0);
    TicksOf(c, w);
    t := Breaks(c);
  }

  /** The search starts at s = 2 * 10^1: R/n = 19.8, 19.8 / 10 <= max(p),
      and p[1] = 2 is the first coefficient reaching 1.98. */
  lemma DefaultStart(c: Config)
    requires c == Config(1.0, 100.0, 5, [1.0, 2.0, 5.0], 10.0)
    ensures c.Valid() && Terminates(c)
    ensures Start(c) == Candidate(2, 1) && Step(c, Candidate(2, 1)) == 20.0
  {
    hide Pow, FloorLog, Max, StartExponent, Prepared;
    DefaultExponent(c);
    PowersOfTen();
    assert FirstAtLeast(c.p, 1.98) == 1;
  }

  lemma DefaultExponent(c: Config)
    requires c == Config(1.0, 100.0, 5, [1.0, 2.0, 5.0], 10.0)
    ensures c.Valid() && c.Cell() == 19.8 && StartExponent(c) == 1
  {
    PowersOfTen();
    FloorLogUnique(10.0, 19.8, 1);
    MaxOfAscending(c.p);
  }

  /** The largest element of an ascending array is its last. */
  lemma MaxOfAscending(xs: seq<real>)
    requires |xs| >= 1 && Sorted(xs)
    ensures Max(xs) == xs[|xs| - 1]
  {
    var m := Max(xs);
    var g :| 0 <= g < |xs| && xs[g] == m;
    assert xs[|xs| - 1] in xs;
  }

  /** pretty(x, n=4) == [0, 50, 100, 150]: R/n = 24.75, k = 1, i = 3,
      s = 50, a = -50, b = 150, and -50 falls below A - s = -49. */
  lemma FourIntervalsExample()
    ensures Pretty.Pretty(OneToHundred(), 4, DefaultP, DefaultBase, DefaultTol)
      == Success([0.0, 50.0, 100.0, 150.0])
  {
    hide Min, Max, Breaks, Sort, Select;
    OneToHundredRange();
    CoefficientsOfPrepared(DefaultP, DefaultBase);
    var c := Config(1.0, 100.0, 4, DefaultP, 10.0);
    var t := FourIntervalsBreaks(c);
    SnapZerosKeeps(t, DefaultTol);
  }

  lemma FourIntervalsBreaks(c: Config) returns (t: seq<real>)
    requires c == Config(1.0, 100.0, 4, [1.0, 2.0, 5.0], 10.0)
    ensures c.Valid() && Terminates(c) && t == Breaks(c)
    ensures t == [0.0, 50.0, 100.0, 150.0]
  {
    hide Ticks;
    FourIntervalsStart(c);
    MultipleOfInt(-1, 50.0);
    WindowOf(c, 50.0, -50.0);
    BreaksWhenStartCovers(c);
    var w := Window(50.0, -50.0, 150.0);
    ARangeOf(-50.0, 151.0, 50.0, 5);
    ARangeInBand(c, w, 5, 1);
    TicksAfterFirst(c, w);
    t := Breaks(c);
  }

  /** The search starts at s = 5 * 10^1: p[2] = 5 is the first coefficient
      reaching 2.475. */
  lemma FourIntervalsStart(c: Config)
    requires c == Config(1.0, 100.0, 4, [1.0, 2.0, 5.0], 10.0)
    ensures c.Valid() && Terminates(c)
    ensures Start(c) == Candidate(3, 1) && Step(c, Candidate(3, 1)) == 50.0
  {
    hide Pow, FloorLog, Max, StartExponent, Prepared;
    FourIntervalsExponent(c);
    PowersOfTen();
    assert FirstAtLeast(c.p, 2.475) == 2;
  }

  lemma FourIntervalsExponent(c: Config)
    requires c == Config(1.0, 100.0, 4, [1.0, 2.0, 5.0], 10.0)
    ensures c.Valid() && c.Cell() == 24.75 && StartExponent(c) == 1
  {
    PowersOfTen();
    FloorLogUnique(10.0, 24.75, 1);
    MaxOfAscending(c.p);
  }

  /** pretty is not idempotent: on the output [0, 50, 100, 150] of the n = 4
      example, R/n = 37.5, k = 1, i = 3, s = 50 and a = -50 again, but now
      -50 == A - s survives the clip of line 72. */
  lemma FourIntervalsRerun()
    ensures Pretty.Pretty([0.0, 50.0, 100.0, 150.0], 4, DefaultP, DefaultBase, DefaultTol)
      == Success([-50.0, 0.0, 50.0, 100.0, 150.0])
  {
    hide Coefficients, Breaks;
    var x := [0.0, 50.0, 100.0, 150.0];
    assert x[0] in x && x[3] in x;
    CoefficientsOfPrepared(DefaultP, DefaultBase);
    var c := Config(0.0, 150.0, 4, DefaultP, 10.0);
    var t := RerunBreaks(c);
    SnapZerosKeeps(t, DefaultTol);
  }

  lemma RerunBreaks(c: Config) returns (t: seq<real>)
    requires c == Config(0.0, 150.0, 4, [1.0, 2.0, 5.0], 10.0)
    ensures c.Valid() && Terminates(c) && t == Breaks(c)
    ensures t == [-50.0, 0.0, 50.0, 100.0, 150.0]
  {
    hide Start, Ticks;
    RerunStart(c);
    MultipleOfInt(-1, 50.0);
    WindowOf(c, 50.0, -50.0);
    BreaksWhenStartCovers(c);
    var w := Window(50.0, -50.0, 150.0);
    ARangeOf(-50.0, 151.0, 50.0, 5);
    ARangeInBand(c, w, 5, 0);
    TicksOf(c, w);
    t := Breaks(c);
  }

  /** The search starts at s = 5 * 10^1: p[2] = 5 is the first coefficient
      reaching 3.75. */
  lemma RerunStart(c: Config)
    requires c == Config(0.0, 150.0, 4, [1.0, 2.0, 5.0], 10.0)
    ensures c.Valid() && Terminates(c)
    ensures Start(c) == Candidate(3, 1) && Step(c, Candidate(3, 1)) == 50.0
  {
    hide Prepared;
    RerunExponent(c);
    PowersOfTen();
    assert FirstAtLeast(c.p, 3.75) == 2;
  }

  lemma RerunExponent(c: Config)
    requires c == Config(0.0, 150.0, 4, [1.0, 2.0, 5.0], 10.0)
    ensures c.Valid() && c.Cell() == 37.5 && StartExponent(c) == 1
  {
    PowersOfTen();
    FloorLogUnique(10.0, 37.5, 1);
    MaxOfAscending(c.p);
  }

  /** pretty(x, base=5) == [0, 25, 50, 75, 100]: p becomes [1, 2], R/n = 19.8,
      k = 2, i = 1, s = 25, a = -25, b = 100, and -25 falls below A - s = -24. */
  lemma BaseFiveExample()
    ensures Pretty.Pretty(OneToHundred(), DefaultN, DefaultP, 5.0, DefaultTol)
      == Success([0.0, 25.0, 50.0, 75.0, 100.0])
  {
    hide Min, Max, Breaks, Select;
    OneToHundredRange();
    BaseFiveCoefficients();
    var c := Config(1.0, 100.0, 5, [1.0, 2.0], 5.0);
    var t := BaseFiveBreaks(c);
    SnapZerosKeeps(t, DefaultTol);
  }

  /** With base 5 the coefficient 5 is dropped: p must lie in [1, base). */
  lemma BaseFiveCoefficients()
    ensures Coefficients(DefaultP, 5.0) == [1.0, 2.0]
  {
    hide Select;
    CoefficientsUnfold(DefaultP, 5.0);
    SortSorted(DefaultP);
    BaseFiveMask();
  }

  lemma CoefficientsUnfold(p: seq<real>, base: real)
    ensures Coefficients(p, base) == Select(Sort(p), Admissible(base))
  {
  }

  lemma BaseFiveMask()
    ensures Select(DefaultP, Admissible(5.0)) == [1.0, 2.0]
  {
    var keep := Admissible(5.0);
    assert Select(DefaultP[2..], keep) == [] by {
      SelectHead(DefaultP[2..], keep);
      assert DefaultP[2..][1..] == [];
      SelectAll([], keep);
    }
    assert Select(DefaultP[1..], keep) == [2.0] by {
      SelectHead(DefaultP[1..], keep);
      assert DefaultP[1..][1..] == DefaultP[2..];
    }
    SelectHead(DefaultP, keep);
  }

  lemma BaseFiveBreaks(c: Config) returns (t: seq<real>)
    requires c == Config(1.0, 100.0, 5, [1.0, 2.0], 5.0)
    ensures c.Valid() && Terminates(c) && t == Breaks(c)
    ensures t == [0.0, 25.0, 50.0, 75.0, 100.0]
  {
    hide Ticks;
    BaseFiveStart(c);
    MultipleOfInt(-1, 25.0);
    WindowOf(c, 25.0, -25.0);
    BreaksWhenStartCovers(c);
    var w := Window(25.0, -25.0, 100.0);
    ARangeOf(-25.0, 101.0, 25.0, 6);
    ARangeInBand(c, w, 6, 1);
    TicksAfterFirst(c, w);
    t := Breaks(c);
  }

  /** 19.8 / 5 exceeds max(p) = 2, so the search starts one exponent up, at
      s = 1 * 5^2: p[0] = 1 already reaches 19.8 / 25. */
  lemma BaseFiveStart(c: Config)
    requires c == Config(1.0, 100.0, 5, [1.0, 2.0], 5.0)
    ensures c.Valid() && Terminates(c)
    ensures Start(c) == Candidate(1, 2) && Step(c, Candidate(1, 2)) == 25.0
  {
    BaseFiveExponent(c);
    PowersOfTen();
    assert FirstAtLeast(c.p, 0.792) == 0;
  }

  lemma BaseFiveExponent(c: Config)
    requires c == Config(1.0, 100.0, 5, [1.0, 2.0], 5.0)
    ensures c.Valid() && c.Cell() == 19.8 && StartExponent(c) == 2
  {
    PowersOfTen();
    FloorLogUnique(5.0, 19.8, 1);
    MaxOfAscending(c.p);
  }

  /** pretty(x, p=[10/7, 20/7, 50/7]) == [0, 200/7, 400/7, 600/7, 800/7]
      (0, 28.57..., 57.14..., 85.71..., 114.28...): R/n = 19.8, k = 1, i = 2,
      s = 200/7, a = -200/7, b = 800/7, and -200/7 falls below A - s. */
  lemma SeventhsExample()
    ensures Pretty.Pretty(OneToHundred(), DefaultN, Sevenths, DefaultBase, DefaultTol)
      == Success([0.0, 200.0 / 7.0, 400.0 / 7.0, 600.0 / 7.0, 800.0 / 7.0])
  {
    hide Min, Max, Breaks, Sort, Select;
    OneToHundredRange();
    CoefficientsOfPrepared(Sevenths, DefaultBase);
    var c := Config(1.0, 100.0, 5, Sevenths, 10.0);
    var t := SeventhsBreaks(c);
    SnapZerosKeeps(t, DefaultTol);
  }

  const Sevenths: seq<real> := [10.0 / 7.0, 20.0 / 7.0, 50.0 / 7.0]

  lemma SeventhsBreaks(c: Config) returns (t: seq<real>)
    requires c == Config(1.0, 100.0, 5, Sevenths, 10.0)
    ensures c.Valid() && Terminates(c) && t == Breaks(c)
    ensures t == [0.0, 200.0 / 7.0, 400.0 / 7.0, 600.0 / 7.0, 800.0 / 7.0]
  {
    hide WindowFor, Breaks;
    var s := 200.0 / 7.0;
    SeventhsStart(c);
    MultipleOfInt(-1, s);
    WindowOf(c, s, -s);
    BreaksWhenStartCovers(c);
    var w := Window(s, -s, 800.0 / 7.0);
    ARangeOf(-s, 800.0 / 7.0 + 1.0, s, 6);
    ARangeInBand(c, w, 6, 1);
    TicksAfterFirst(c, w);
    t := Breaks(c);
  }

  /** The search starts at s = (20/7) * 10^1: 20/7 is the first coefficient
      reaching 1.98. */
  lemma SeventhsStart(c: Config)
    requires c == Config(1.0, 100.0, 5, Sevenths, 10.0)
    ensures c.Valid() && Terminates(c)
    ensures Start(c) == Candidate(2, 1) && Step(c, Candidate(2, 1)) == 200.0 / 7.0
  {
    hide Pow, FloorLog, Max, StartExponent, Prepared;
    SeventhsExponent(c);
    PowersOfTen();
    assert FirstAtLeast(c.p, 1.98) == 1;
  }

  lemma SeventhsExponent(c: Config)
    requires c == Config(1.0, 100.0, 5, Sevenths, 10.0)
    ensures c.Valid() && c.Cell() == 19.8 && StartExponent(c) == 1
  {
    PowersOfTen();
    FloorLogUnique(10.0, 19.8, 1);
    MaxOfAscending(c.p);
  }

  lemma PowersOfTen()
    ensures Pow(10.0, 1) == 10.0 && Pow(10.0, 2) == 100.0
    ensures Pow(5.0, 1) == 5.0 && Pow(5.0, 2) == 25.0
  {
  }
}

=== FILE: pretty_simple.dfy ===
/** The one-shot radix-10 variant (`pretty` in pretty_simple.py), a simplified
    form of R's pretty(): the cell (up - lo) / n is rounded to a nearby unit of
    the form k * 10^t with k in {1, 2, 5, 10}, within cell / 1.4 <= unit <
    cell / 0.56, and the breaks are the multiples of that unit from just below
    lo to just above up. */
module PrettySimple {
  import opened RealMath
  import opened ArrayOps
  import opened Results

  /** Why a call fails: Python raises ZeroDivisionError for n == 0 and
      "math domain error" from log10 when the cell is not positive. */
  datatype Error = ZeroDivision | MathDomain

  /** The 1e-10 slack of lines 44-45. */
  const Eps: real := 0.0000000001

  /** Line 34: 10^floor(log10(cell)), the decade of the cell. */
  function Decade(cell: real): (b: real)
    requires cell > 0.0
    ensures b > 0.0
  {
    Pow(10.0, FloorLog(10.0, cell))
  }

  /** The cell lies in [b, 10 b) for its decade b, i.e. 1 <= cell / b < 10. */
  lemma DecadeBrackets(cell: real)
    requires cell > 0.0
    ensures Decade(cell) <= cell < 10.0 * Decade(cell)
  {
    PowStep(10.0, FloorLog(10.0, cell));
  }

  /** Lines 35-42: the first threshold 1.4 b, 2.8 b, 7 b that the cell does not
      exceed picks 1, 2 or 5; past all three the multiplier is 10. */
  function Multiplier(cell: real, b: real): (k: real)
    ensures k == 1.0 || k == 2.0 || k == 5.0 || k == 10.0
  {
    if cell <= b * 1.4 then 1.0
    else if cell <= b * 2.8 then 2.0
    else if cell <= b * 7.0 then 5.0
    else 10.0
  }

  /** Each threshold is 1.4 times its multiplier, so the multiplier is the
      least of 1, 2, 5 with cell <= 1.4 * k * b, and 10 when there is none. */
  lemma MultiplierIsLeast(cell: real, b: real, m: real)
    requires m == 1.0 || m == 2.0 || m == 5.0
    ensures var k := Multiplier(cell, b);
      && (k < 10.0 ==> cell <= 1.4 * k * b)
      && (m < k ==> 1.4 * m * b < cell)
  {
  }

  /** Line 43: unit = k * base. */
  function Unit(cell: real): (u: real)
    requires cell > 0.0
    ensures u > 0.0
  {
    var b := Decade(cell);
    Multiplier(cell, b) * b
  }

  /** The unit is within the factors 1.4 and 1/0.56 of the cell:
      cell / 1.4 <= unit < cell / 0.56. */
  lemma UnitBounds(cell: real)
    requires cell > 0.0
    ensures cell / 1.4 <= Unit(cell) < cell / 0.56
  {
    DecadeBrackets(cell);
  }

  /** The unit is not always above the cell: a cell of 1.3 keeps k = 1 and
      gets unit 1, so pretty(0, 13, n=10) has 13 intervals. */
  lemma UnitBelowCell()
    ensures Unit(1.3) == 1.0 < 1.3
  {
    assert Pow(10.0, 0) == 1.0 && Pow(10.0, 1) == 10.0;
    FloorLogUnique(10.0, 1.3, 0);
  }

  /** floor(x / u + 1e-10) * u lies at most 1e-10 units above x. */
  lemma LowIndexBound(x: real, u: real)
    requires u > 0.0
    ensures (x / u + Eps).Floor as real * u <= x + Eps * u
  {
    var q := x / u + Eps;
    DivMul(x, u);
    ScaledAtMost(q.Floor as real, q, u, x + Eps * u);
  }

  /** ceil(y / u - 1e-10) * u lies at most 1e-10 units below y. */
  lemma HighIndexBound(y: real, u: real)
    requires u > 0.0
    ensures y - Eps * u <= Ceil(y / u - Eps) as real * u
  {
    var q := y / u - Eps;
    DivMul(y, u);
    ScaledAtLeast(Ceil(q) as real, q, u, y - Eps * u);
  }

  /** Line 47: [unit * i for i in range(ns, nu + 1)]. */
  function Grid(u: real, ns: int, nu: int): (r: seq<real>)
    ensures |r| == if nu < ns then 0 else nu - ns + 1
  {
    seq(if nu < ns then 0 else nu - ns + 1, t requires 0 <= t => u * (ns + t) as real)
  }

  /** The grid is a progression with gap u of integer multiples of u, from
      u * ns up to u * nu. */
  lemma GridShape(u: real, ns: int, nu: int)
    requires u > 0.0 && ns <= nu
    ensures var r := Grid(u, ns, nu);
      && IsProgression(r, u)
      && (forall t :: 0 <= t < |r| ==> IsMultipleOf(r[t], u))
      && r[0] == ns as real * u
      && r[|r| - 1] == nu as real * u
  {
    var r := Grid(u, ns, nu);
    forall t | 0 <= t < |r|
      ensures r[t] == r[0] + t as real * u && IsMultipleOf(r[t], u)
    {
      var m := ns + t;
      assert r[t] == m as real * u;
      MultipleOfInt(m, u);
    }
  }

  /** range(ns, nu + 1) scaled by u holds exactly the multiples of u from
      ns * u to nu * u. */
  lemma GridMembers(u: real, ns: int, nu: int, y: real)
    requires u > 0.0
    ensures y in Grid(u, ns, nu) <==> IsMultipleOf(y, u) && ns as real * u <= y <= nu as real * u
  {
    if y in Grid(u, ns, nu) {
      GridMemberIsMultiple(u, ns, nu, y);
    }
    if IsMultipleOf(y, u) && ns as real * u <= y <= nu as real * u {
      MultipleIsGridMember(u, ns, nu, y);
    }
  }

  lemma GridMemberIsMultiple(u: real, ns: int, nu: int, y: real)
    requires u > 0.0 && y in Grid(u, ns, nu)
    ensures IsMultipleOf(y, u) && ns as real * u <= y <= nu as real * u
  {
    hide Grid, IsMultipleOf;
    var r := Grid(u, ns, nu);
    var t :| 0 <= t < |r| && r[t] == y;
    var m := ns + t;
    GridAt(u, ns, nu, t, m);
    MultipleOfInt(m, u);
    var mr, nsr, nur := m as real, ns as real, nu as real;
    MulLessEq(nsr, mr, u);
    MulLessEq(mr, nur, u);
  }

  /** The t-th grid point is the (ns + t)-th multiple of u. */
  lemma GridAt(u: real, ns: int, nu: int, t: int, m: int)
    requires 0 <= t < |Grid(u, ns, nu)| && m == ns + t
    ensures Grid(u, ns, nu)[t] == m as real * u
  {
  }

  lemma MultipleIsGridMember(u: real, ns: int, nu: int, y: real)
    requires u > 0.0 && IsMultipleOf(y, u) && ns as real * u <= y <= nu as real * u
    ensures y in Grid(u, ns, nu)
  {
    var m := (y / u).Floor;
    var mr, nsr, nur := m as real, ns as real, nu as real;
    DivMul(y, u);
    assert y == mr * u;
    var r := Grid(u, ns, nu);
    var t := m - ns;
    assert ns + t == m;
    assert r[t] == y;
  }

  /** Lines 43-47 for a positive cell. */
  function Breaks(lo: real, up: real, cell: real): seq<real>
    requires cell > 0.0
  {
    var u := Unit(cell);
    Grid(u, (lo / u + Eps).Floor, Ceil(up / u - Eps))
  }

  /** pretty(lo, up, n).  Fails exactly where Python raises: n == 0 divides by
      zero and a cell (up - lo) / n that is not positive has no log10. */
  function Pretty(lo: real, up: real, n: int): (r: Result<seq<real>, Error>)
    ensures n == 0 <==> r == Failure(ZeroDivision)
    ensures n != 0 && (up - lo) / n as real <= 0.0 <==> r == Failure(MathDomain)
    ensures r.Success? ==> r.value == Breaks(lo, up, (up - lo) / n as real)
  {
    if n == 0 then Failure(ZeroDivision)
    else
      var cell := (up - lo) / n as real;
      if cell <= 0.0 then Failure(MathDomain)
      else Success(Breaks(lo, up, cell))
  }

  /** A successful call on lo < up returns at least two breaks, an ascending
      progression with gap unit of multiples of unit, the first at most
      1e-10 units above lo and the last at most 1e-10 units below up. */
  lemma BreaksCover(lo: real, up: real, n: int)
    requires lo < up && n > 0
    ensures var cell := (up - lo) / n as real;
      && cell > 0.0
      && var r, u := Breaks(lo, up, cell), Unit(cell);
      && |r| >= 2
      && IsProgression(r, u)
      && (forall t :: 0 <= t < |r| ==> IsMultipleOf(r[t], u))
      && r[0] <= lo + Eps * u
      && up - Eps * u <= r[|r| - 1]
  {
    hide Unit;
    var cell := (up - lo) / n as real;
    QuotientPositive(up - lo, n as real);
    var u := Unit(cell);
    var ns, nu := (lo / u + Eps).Floor, Ceil(up / u - Eps);
    LowIndexBound(lo, u);
    HighIndexBound(up, u);
    assert ns < nu by {
      IndicesApart(lo, up, n, cell, u);
    }
    GridShape(u, ns, nu);
  }

  /** "About n" breaks: for lo < up and n > 0 there are fewer than 1.4 n + 3,
      since the unit is at least cell / 1.4 and the slack adds at most two. */
  lemma BreaksCount(lo: real, up: real, n: int)
    requires lo < up && n > 0
    ensures var cell := (up - lo) / n as real;
      && cell > 0.0
      && (|Breaks(lo, up, cell)| as real) < 1.4 * n as real + 3.0
  {
    hide Unit;
    var cell := (up - lo) / n as real;
    QuotientPositive(up - lo, n as real);
    var u := Unit(cell);
    var ns, nu := (lo / u + Eps).Floor, Ceil(up / u - Eps);
    IndicesApart(lo, up, n, cell, u);
    assert |Breaks(lo, up, cell)| == nu - ns + 1;
    // the slack moves each end index by less than one
    assert (nu - ns + 1) as real < up / u - lo / u + 3.0;
    DivMul(up, u);
    DivMul(lo, u);
    assert up / u - lo / u == (up - lo) / u by {
      assert (up / u - lo / u) * u == up - lo;
      DivideExact(up - lo, u, up / u - lo / u);
    }
    // up - lo == cell * n <= 1.4 u n
    UnitBounds(cell);
    AtLeastQuotient(cell, 1.4, u);
    DivMul(up - lo, n as real);
    MulLessEq(cell, u * 1.4, n as real);
    assert (u * 1.4) * n as real == (1.4 * n as real) * u;
    QuotientAtMost(up - lo, u, 1.4 * n as real);
  }

  /** The two indices are apart: (up - lo) / u > 0.56 exceeds the 2e-10 the
      slack can take away. */
  lemma IndicesApart(lo: real, up: real, n: int, cell: real, u: real)
    requires lo < up && n > 0 && cell == (up - lo) / n as real && cell > 0.0 && u == Unit(cell)
    ensures (lo / u + Eps).Floor < Ceil(up / u - Eps)
  {
    hide Unit;
    UnitBounds(cell);
    DivMul(up - lo, n as real);
    MulLessEq(1.0, n as real, cell);
    // up - lo >= cell > 0.56 u, so (up - lo) / u > 0.56
    var d := (up - lo) / u;
    DivMul(up - lo, u);
    QuotientAtLeast(up - lo, u, 0.56);
    DivMul(lo, u);
    DivMul(up, u);
    assert up / u - lo / u == d by {
      assert (up / u - lo / u) * u == up - lo;
      DivideExact(up - lo, u, up / u - lo / u);
    }
  }

  /** A reversed range, up < lo with n < 0, also passes the checks of lines
      33-34. Since unit < cell / 0.56, the span lo - up exceeds
      0.56 * unit * (-n), so the breaks are at most two; at most one for
      n <= -2; none for n <= -4. */
  lemma ReversedBreaks(lo: real, up: real, n: int)
    requires up < lo && n < 0
    ensures var cell := (up - lo) / n as real;
      && cell > 0.0
      && var k := |Breaks(lo, up, cell)|;
      && k <= 2
      && (n <= -2 ==> k <= 1)
      && (n <= -4 ==> k == 0)
  {
    hide Unit;
    var cell := (up - lo) / n as real;
    var d, mr := lo - up, (-n) as real;
    var c := d / mr;
    DivMul(d, mr);
    assert c * n as real == up - lo;
    assert cell == c;
    QuotientPositive(d, mr);
    var u := Unit(cell);
    var ns, nu := (lo / u + Eps).Floor, Ceil(up / u - Eps);
    // cell > 0.56 u, so d == cell * |n| > 0.56 u |n|
    UnitBounds(cell);
    DivMul(cell, 0.56);
    MulLess(u, cell / 0.56, 0.56);
    MulLessEq(u * 0.56, cell, mr);
    assert (u * 0.56) * mr == (0.56 * mr) * u;
    QuotientAtLeast(d, u, 0.56 * mr);
    DivMul(lo, u);
    DivMul(up, u);
    assert lo / u - up / u == d / u by {
      assert (lo / u - up / u) * u == d;
      DivideExact(d, u, lo / u - up / u);
    }
    // the slack moves each index by less than one
    assert (ns - nu) as real > 0.56 * mr - 2.0;
  }

  /** pretty(10.3, 10.1, n=-1) == [10.2]: the cell is 0.2, the unit 0.2, and
      ns == nu == 51. */
  lemma ReversedExample()
    ensures Pretty(10.3, 10.1, -1) == Success([10.2])
  {
    var cell := (10.1 - 10.3) / -1.0;
    assert cell == 0.2;
    assert Pow(10.0, -1) == 0.1 && Pow(10.0, 0) == 1.0;
    FloorLogUnique(10.0, cell, -1);
    assert Decade(cell) == 0.1;
    assert Unit(cell) == 0.2;
    assert (10.3 / 0.2 + Eps).Floor == 51;
    assert Ceil(10.1 / 0.2 - Eps) == 51;
    var r := Breaks(10.3, 10.1, cell);
    assert |r| == 1;
    assert r == [10.2];
  }

  /** pretty(-1, 101, n=5) == [-20, 0, 20, 40, 60, 80, 100, 120]. */
  lemma DocumentedExample()
    ensures Pretty(-1.0, 101.0, 5) == Success([-20.0, 0.0, 20.0, 40.0, 60.0, 80.0, 100.0, 120.0])
  {
    var cell := 102.0 / 5.0;
    assert cell == 20.4;
    assert Pow(10.0, 1) == 10.0 && Pow(10.0, 2) == 100.0;
    FloorLogUnique(10.0, cell, 1);
    assert Decade(cell) == 10.0;
    assert Unit(cell) == 20.0;
    assert (-1.0 / 20.0 + Eps).Floor == -1;
    assert Ceil(101.0 / 20.0 - Eps) == 6;
    var r := Breaks(-1.0, 101.0, cell);
    assert |r| == 8;
    assert r == [-20.0, 0.0, 20.0, 40.0, 60.0, 80.0, 100.0, 120.0];
  }
}

=== FILE: real_math.dfy ===
/** Exact real arithmetic used by both breakpoint engines: integer powers of a
    radix (negative exponents included), the floor of a logarithm, the
    ceiling, and "is an integer multiple of".  Logarithms are never computed:
    floor(log_b(x)) is the unique integer t with b^t <= x < b^(t+1), found by
    a terminating search. */
module RealMath {

  function Abs(x: real): real {
    if x < 0.0 then -x else x
  }

  /** Smallest integer not below x (Python's math.ceil). */
  function Ceil(x: real): (c: int)
    ensures x <= c as real < x + 1.0
  {
    -((-x).Floor)
  }

  /** x is an integer multiple of the positive step s. */
  predicate IsMultipleOf(x: real, s: real)
    requires s > 0.0
  {
    (x / s).Floor as real == x / s
  }

  lemma MultipleOfInt(m: int, s: real)
    requires s > 0.0
    ensures IsMultipleOf(m as real * s, s)
  {
    DivideExact(m as real * s, s, m as real);
  }

  lemma MulLess(x: real, y: real, z: real)
    requires x < y && z > 0.0
    ensures x * z < y * z
  {
  }

  lemma MulLessEq(x: real, y: real, z: real)
    requires x <= y && z >= 0.0
    ensures x * z <= y * z
  {
  }

  lemma MulLeftLessEq(z: real, x: real, y: real)
    requires x <= y && z >= 0.0
    ensures z * x <= z * y
  {
  }

  lemma DivideExact(y: real, s: real, z: real)
    requires s > 0.0 && z * s == y
    ensures y / s == z
  {
  }

  /** With x * s == y and s > 0, multiplying by s keeps m's place relative to x. */
  lemma ScaledBelow(m: real, x: real, s: real, y: real)
    requires s > 0.0 && m < x && x * s == y
    ensures m * s < y
  {
    MulLess(m, x, s);
  }

  lemma ScaledAtMost(m: real, x: real, s: real, y: real)
    requires s > 0.0 && m <= x && x * s == y
    ensures m * s <= y
  {
    MulLessEq(m, x, s);
  }

  lemma ScaledAtLeast(m: real, x: real, s: real, y: real)
    requires s > 0.0 && x <= m && x * s == y
    ensures y <= m * s
  {
    MulLessEq(x, m, s);
  }

  lemma ScaledAbove(m: real, x: real, s: real, y: real)
    requires s > 0.0 && x < m && x * s == y
    ensures y < m * s
  {
    MulLess(x, m, s);
  }

  /** (y / s) * s == y */
  lemma DivMul(y: real, s: real)
    requires s > 0.0
    ensures (y / s) * s == y
  {
  }

  /** floor(y / s) * s is the largest multiple of s not above y. */
  lemma FloorScaled(y: real, s: real)
    requires s > 0.0
    ensures y - s < (y / s).Floor as real * s <= y
  {
    var x := y / s;
    var m := x.Floor as real;
    DivMul(y, s);
    ScaledAtMost(m, x, s, y);
    ScaledAbove(m + 1.0, x, s, y);
    assert (m + 1.0) * s == m * s + s;
  }

  /** ceil(y / s) * s is the smallest multiple of s not below y. */
  lemma CeilScaled(y: real, s: real)
    requires s > 0.0
    ensures y <= Ceil(y / s) as real * s < y + s
  {
    var x := y / s;
    var m := Ceil(x) as real;
    DivMul(y, s);
    ScaledAtLeast(m, x, s, y);
    ScaledBelow(m - 1.0, x, s, y);
    assert (m - 1.0) * s == m * s - s;
  }

  /** Dividing by a positive s keeps y's place relative to a multiple of s. */
  lemma QuotientAtLeast(y: real, s: real, lo: real)
    requires s > 0.0 && lo * s <= y
    ensures lo <= y / s
  {
    DivMul(y, s);
    if y / s < lo {
      MulLess(y / s, lo, s);
    }
  }

  lemma QuotientBelow(y: real, s: real, hi: real)
    requires s > 0.0 && y < hi * s
    ensures y / s < hi
  {
    DivMul(y, s);
    if y / s >= hi {
      MulLessEq(hi, y / s, s);
    }
  }

  lemma QuotientAtMost(y: real, s: real, hi: real)
    requires s > 0.0 && y <= hi * s
    ensures y / s <= hi
  {
    DivMul(y, s);
    if y / s > hi {
      MulLess(hi, y / s, s);
    }
  }

  /** s >= y / k means s * k >= y, for k > 0. */
  lemma AtLeastQuotient(y: real, k: real, s: real)
    requires k > 0.0 && y / k <= s
    ensures y <= s * k
  {
    DivMul(y, k);
    MulLessEq(y / k, s, k);
  }

  /** A quotient of positives is positive. */
  lemma QuotientPositive(y: real, s: real)
    requires y > 0.0 && s > 0.0
    ensures y / s > 0.0
  {
    QuotientBelow(0.0, s, y / s) by {
      DivMul(y, s);
    }
  }

  /** Dividing by more gives less: y / n < y / k for 0 < k < n. */
  lemma QuotientShrinks(y: real, k: real, n: real)
    requires y > 0.0 && 0.0 < k < n
    ensures y / n < y / k
  {
    var u, v := y / n, y / k;
    DivMul(y, n);
    DivMul(y, k);
    QuotientPositive(y, n);
    MulLess(k, n, u);
    ScaledBelow(u, v, k, y) by {
      if v <= u {
        MulLessEq(v, u, k);
      }
    }
  }

  /** floor((x - a) / s): the number of whole steps of s from a up to x. */
  function StepsUpTo(a: real, s: real, x: real): (j: nat)
    requires s > 0.0 && a <= x
    ensures x - s < a + j as real * s <= x
  {
    FloorScaled(x - a, s);
    QuotientAtLeast(x - a, s, 0.0);
    ((x - a) / s).Floor
  }

  /** ceil((x - a) / s): the fewest steps of s from a that reach x, which is
      at most n when x lies within n steps of a. */
  function StepsFrom(a: real, s: real, x: real, n: int): (j: nat)
    requires s > 0.0 && a <= x <= a + s * n as real
    ensures j <= n
    ensures x <= a + j as real * s < x + s
  {
    CeilScaled(x - a, s);
    QuotientAtLeast(x - a, s, 0.0);
    assert s * n as real == n as real * s;
    QuotientAtMost(x - a, s, n as real);
    Ceil((x - a) / s)
  }

  /** Moving a multiple of s by a whole number of steps keeps it a multiple. */
  lemma MultipleShift(a: real, s: real, g: int)
    requires s > 0.0 && IsMultipleOf(a, s)
    ensures IsMultipleOf(a + g as real * s, s)
  {
    var m := (a / s).Floor;
    var k := m + g;
    DivMul(a, s);
    assert a + g as real * s == k as real * s;
    MultipleOfInt(k, s);
  }

  /** Two different multiples of s are at least s apart. */
  lemma MultiplesApart(x: real, y: real, s: real)
    requires s > 0.0 && IsMultipleOf(x, s) && IsMultipleOf(y, s) && x < y
    ensures x + s <= y
  {
    var m, g := (x / s).Floor, (y / s).Floor;
    DivMul(x, s);
    DivMul(y, s);
    var mr, gr := m as real, g as real;
    assert x == mr * s && y == gr * s;
    if g <= m {
      MulLessEq(gr, mr, s);
      assert false;
    }
    MulLessEq(mr + 1.0, gr, s);
  }

  /** b^k for every integer k; the exact counterpart of `b ** k`. */
  function Pow(b: real, k: int): (r: real)
    requires b > 0.0
    ensures r > 0.0
    decreases if k < 0 then -k else k
  {
    if k == 0 then 1.0
    else if k > 0 then b * Pow(b, k - 1)
    else Pow(b, k + 1) / b
  }

  lemma PowZero(b: real)
    requires b > 0.0
    ensures Pow(b, 0) == 1.0
  {
  }

  lemma PowStep(b: real, k: int)
    requires b > 0.0
    ensures Pow(b, k + 1) == b * Pow(b, k)
  {
    if k < 0 {
      assert Pow(b, k) == Pow(b, k + 1) / b;
    }
  }

  lemma {:induction false} PowStrictlyIncreasing(b: real, j: int, k: int)
    requires b > 1.0 && j < k
    ensures Pow(b, j) < Pow(b, k)
    decreases k - j
  {
    var q := Pow(b, k - 1);
    assert q < Pow(b, k) by {
      PowStep(b, k - 1);
      MulLess(1.0, b, q);
    }
    if j < k - 1 {
      PowStrictlyIncreasing(b, j, k - 1);
    }
  }

  lemma PowMonotone(b: real, j: int, k: int)
    requires b > 1.0 && j <= k
    ensures Pow(b, j) <= Pow(b, k)
  {
    if j < k {
      PowStrictlyIncreasing(b, j, k);
    }
  }

  /** A radix of at least two grows at least linearly: b^k >= k + 1. */
  lemma {:induction false} PowAtLeastLinear(b: real, k: nat)
    requires b >= 2.0
    ensures Pow(b, k) >= (k + 1) as real
  {
    hide Pow;
    if k == 0 {
      PowZero(b);
    } else {
      PowAtLeastLinear(b, k - 1);
      PowStep(b, k - 1);
      var q := Pow(b, k - 1);
      assert b * q >= 2.0 * q;
    }
  }

  lemma {:induction false} PowReciprocal(b: real, k: int)
    requires b > 0.0 && k >= 0
    ensures Pow(b, -k) * Pow(b, k) == 1.0
  {
    hide Pow;
    if k == 0 {
      PowZero(b);
    } else {
      PowReciprocal(b, k - 1);
      PowStep(b, -k);
      PowStep(b, k - 1);
      var u, v := Pow(b, -k), Pow(b, k - 1);
      assert Pow(b, -(k - 1)) == b * u;
      assert Pow(b, k) == b * v;
      assert (b * u) * v == 1.0;
      Reassociate(b, u, v);
      assert u * (b * v) == 1.0;
    }
  }

  lemma Reassociate(b: real, u: real, v: real)
    ensures (b * u) * v == u * (b * v)
  {
  }

  /** floor(log_b(x)): the exponent t with b^t <= x < b^(t+1). */
  function FloorLog(b: real, x: real): (t: int)
    requires b >= 2.0 && x > 0.0
    ensures Pow(b, t) <= x < Pow(b, t + 1)
  {
    if x >= 1.0 then FloorLogUp(b, x, 0) else FloorLogDown(b, x, -1)
  }

  /** Upward search from a t already known to satisfy b^t <= x. */
  function FloorLogUp(b: real, x: real, t: nat): (r: int)
    requires b >= 2.0 && Pow(b, t) <= x
    ensures t <= r && Pow(b, r) <= x < Pow(b, r + 1)
    decreases x.Floor - t
  {
    if x < Pow(b, t + 1) then t
    else
      PowAtLeastLinear(b, t + 1);
      FloorLogUp(b, x, t + 1)
  }

  /** If 0 < x < u and u * v == 1, then every m <= v lies below 1 / x. */
  lemma BelowReciprocal(x: real, u: real, v: real, m: real)
    requires 0.0 < x < u && v > 0.0 && u * v == 1.0 && m <= v
    ensures m < 1.0 / x
  {
    MulLess(x, u, v);
    var y := 1.0 / x;
    assert x * y == 1.0;
  }

  lemma DownStepBound(b: real, x: real, t: int)
    requires b >= 2.0 && 0.0 < x && t < 0 && x < Pow(b, t)
    ensures (1.0 / x).Floor + t >= 1
  {
    PowReciprocal(b, -t);
    PowAtLeastLinear(b, -t);
    BelowReciprocal(x, Pow(b, t), Pow(b, -t), (1 - t) as real);
  }

  /** Downward search from a t < 0 already known to satisfy x < b^(t+1). */
  function FloorLogDown(b: real, x: real, t: int): (r: int)
    requires b >= 2.0 && 0.0 < x && t < 0 && x < Pow(b, t + 1)
    ensures r <= t && Pow(b, r) <= x < Pow(b, r + 1)
    decreases (1.0 / x).Floor + t
  {
    if Pow(b, t) <= x then t
    else
      DownStepBound(b, x, t);
      FloorLogDown(b, x, t - 1)
  }

  /** The search finds the one exponent that brackets x. */
  lemma FloorLogUnique(b: real, x: real, t: int)
    requires b >= 2.0 && x > 0.0
    requires Pow(b, t) <= x < Pow(b, t + 1)
    ensures FloorLog(b, x) == t
  {
    var u := FloorLog(b, x);
    if u < t {
      PowMonotone(b, u + 1, t);
    } else if u > t {
      PowMonotone(b, t + 1, u);
    }
  }

  /** floor(log_b(x)) does not decrease as x grows. */
  lemma FloorLogMonotone(b: real, x: real, y: real)
    requires b >= 2.0 && 0.0 < x <= y
    ensures FloorLog(b, x) <= FloorLog(b, y)
  {
    var u, v := FloorLog(b, x), FloorLog(b, y);
    if u > v {
      PowMonotone(b, v + 1, u);
    }
  }
}

=== FILE: results.dfy ===
/** The outcome of a call that may be rejected: the Python code raises on bad
    input (a failed assertion, a division by zero, a math domain error); the
    model returns Failure with the reason instead. */
module Results {

  datatype Result<+T, +E> = Success(value: T) | Failure(error: E)
}
